=== FILE: README.md ===
# django-microsoft-sso: the login decision logic in Dafny

django-microsoft-sso lets users of a Django site log in with Microsoft Entra
ID.

- `start_login` remembers where to send the user afterwards and hands them to
  Microsoft.
- `callback` runs a fixed chain of checks on the answer:
  1. SSO is enabled;
  2. an authorization code arrived;
  3. the returned state equals the stored one;
  4. the token result is usable;
  5. the user claims were fetched;
  6. the email domain is allowed.

  It then finds or creates the local user, records the link to the Microsoft
  identity, and logs the user in, or redirects to the failure URL.

This project models that logic as pure functions over records:

- the settings (`Conf`);
- the user table and the `microsoft_sso_user` link table (`Models`);
- the request, the session and the provider's answers (`Views`, `UserHelper`).

It proves what the code promises about them.

Files and modules:

| file | module | models |
|---|---|---|
| `wrappers.dfy` | `Wrappers` | `Option` and `Result` |
| `pystr.dfy` | `PyStr` | the Python `str` operations the code relies on: `startswith`, substring `in`, `find`/`rfind`, `split`, slicing with clamped bounds, truthiness |
| `urlparse.dfy` | `UrlParse` | CPython 3.12 `urllib.parse.urlsplit`/`urlparse`, whose path component decides the stored next URL |
| `base64.dfy` | `Base64` | the base 64 encoding of section 4 of RFC 4648 (`b64encode`), with a decoder to state that it is lossless |
| `conf.dfy` | `Conf` | `conf.py`: every setting with its default, and the logger switch |
| `models.dfy` | `Models` | `models.py`: the link row, `picture`, `__str__`, plus the user table and its constraints |
| `utils.dfy` | `Utils` | `show_credential` |
| `main.dfy` | `MicrosoftAuth`, `UserHelper` | `main.py`: the redirect URI, the email check, `get_or_create_user`, the permission checks, `find_user` |
| `views.dfy` | `Views` | `views.py`: `start_login` and `callback` |

Parameters stand in for the parts that are I/O or live outside the package:

- the site domain and the request's `META`;
- the URL resolver `reverse`;
- the provider flow and login URL;
- the token result, the user claims and the access token;
- the pre-login hook;
- Django's `AUTHENTICATION_BACKENDS`, which `login` falls back on.
- the user's session auth hash, which `login` stores and compares. It is an HMAC of the password field, and `set_unusable_password` makes that field random.

Behaviour of the code worth noting, which the model keeps:

- Users are looked up by exact email. There is no case-insensitive match, no
  principal-name lookup and no unique-email mode.
- The staff and superuser lists are plain membership tests of the user's
  email. There is no `"*"` wildcard.
- The allowed-domain check asks whether the email's domain is a substring of a
  configured entry. There is no wildcard.
- The first-superuser check only looks for a superuser whose email contains
  `@<domain>` of the new user.
- Updating a user from the claims sets names, username and an unusable
  password. The email is never rewritten.
- Settings are plain values read once. There are no per-request callables and
  no type error for a callable flag.

## Model

| member | source | states |
|---|---|---|
| Utils.ShowCredential | django_microsoft_sso/utils.py:13-14 | the first `min(5, n)` characters, "...", then the last `min(5, n)`; length `2*min(5, n)+3`; "..." starts at index `min(5, n)`; a credential of at most 5 characters appears whole on both sides |
| PyStr.LastPartIsAfterLast | django_microsoft_sso/main.py:113 | `split("@")[-1]` is exactly the text after the last '@' (the whole string when there is none) and holds no '@' |
| PyStr.SplitJoin | django_microsoft_sso/main.py:113 | joining the pieces of `split` gives back the string |
| Conf.Resolve | django_microsoft_sso/conf.py:4-84 | every one of the 31 settings equals the host's value when the host defines the name (even a defined `None`), else its default: enabled, auto-create, logs, messages and basic-info saving on; first-superuser, always-update, save-token, SLO, unique-email, W003 and failed-login message off; empty domain, staff and superuser lists; "admin:index" for the next, failure and logout URLs; timeout 10; cookie age 3600; scopes ["User.ReadBasic.All"]; the three hook paths, logo and text defaults; `None` for id, secret, callback domain, backend and authority |
| Conf.ResolveDefined | django_microsoft_sso/conf.py:4-84 | a host that defines every name gets exactly its own values back |
| Conf.ResolveNothingDefined | django_microsoft_sso/conf.py:4-84 | a host that defines none of the names gets the package's default configuration |
| Conf.ApplyLogSetting | django_microsoft_sso/conf.py:87-90 | the package's logs are on exactly when `MICROSOFT_SSO_ENABLE_LOGS` is true; other packages' switches are untouched |
| Conf.ApplyLogSettingIdempotent | django_microsoft_sso/conf.py:87-90 | applying the setting twice (a module reload) is the same as once |
| Base64.Encode | django_microsoft_sso/models.py:23 | the encoding of n bytes has length `4*ceil(n/3)`, alphabet characters first, then exactly the '=' padding |
| Base64.DecodeEncode | django_microsoft_sso/models.py:23 | decoding the encoding gives back the bytes |
| Base64.TestVectors | django_microsoft_sso/models.py:23 | the encoder reproduces the test vectors of section 10 of RFC 4648 ("", "Zg==", "Zm8=", "Zm9v", "Zm9vYg==", "Zm9vYmE=", "Zm9vYmFy") |
| Models.Picture | django_microsoft_sso/models.py:17-26 | no tag exactly when `picture_raw` is null or empty; otherwise the fixed img template around exactly the `b64encode` of `picture_raw`, a payload of length `4*ceil(n/3)` that decodes back to `picture_raw` |
| Models.Str | django_microsoft_sso/models.py:28-29 | the owner's email, " (", the Microsoft id (or "None"), ")"; the id can be read back from between the parentheses |
| Models.CreateUser | django_microsoft_sso/main.py:125 | a new row with a fresh key and the given email, active, neither staff nor superuser; the constraints still hold |
| Models.SaveUser | django_microsoft_sso/main.py:133 | the saved user is in the table, every other row is kept, the links are untouched, the constraints still hold |
| Models.WithEmail | django_microsoft_sso/main.py:179 | exactly the users whose email equals the given one, each no more often than in the table (a sub-multiset), so with distinct keys in the table the matches have distinct keys |
| Models.SeveralMatches | django_microsoft_sso/main.py:179-181 | the filter yields more than one row exactly when two positions of the table hold the email |
| Models.GetOrCreateLink | django_microsoft_sso/main.py:135 | the user's existing link, or a new all-null one added to the table (no other link changes); the row returned always belongs to the user; the constraints still hold |
| Models.SaveLink | django_microsoft_sso/models.py:13-15 | the save succeeds exactly when `microsoft_id` is at most 255 and `locale` at most 5 characters; on success the user's link is replaced and the constraints still hold |
| Models.DeleteUser | django_microsoft_sso/models.py:12 | deleting a user removes its link as well and keeps every other row and link |
| Models.WithoutKeepsDistinct | django_microsoft_sso/models.py:12 | removing rows keeps primary keys distinct |
| MicrosoftAuth.GetNetloc | django_microsoft_sso/main.py:28-35 | the callback domain when it is set and non-empty, otherwise the site domain |
| MicrosoftAuth.GetRedirectUri | django_microsoft_sso/main.py:37-46 | `<scheme>://` followed by the netloc and the callback path; the scheme is X-Forwarded-Proto when present |
| MicrosoftAuth.RedirectUriParses | django_microsoft_sso/main.py:37-46 | parsing the redirect URI back gives the chosen netloc and the callback path |
| UserHelper.EmailIsValid | django_microsoft_sso/main.py:107-121 | true iff some allowed entry contains the domain of the mail claim (`user_email`) as a substring; false for an empty list; the verified flag plays no part |
| UserHelper.ListedDomainAllowed | django_microsoft_sso/main.py:113-117 | an email whose domain is listed verbatim is accepted |
| UserHelper.PartialDomainAllowed | django_microsoft_sso/main.py:113-117 | "kalel@planet.com" is accepted under ["dailyplanet.com"]: the check matches substrings, not domains |
| UserHelper.EmptyDomainAllowed | django_microsoft_sso/main.py:113-117 | an email ending in '@' is accepted by any non-empty list |
| UserHelper.CheckFirstSuperUser | django_microsoft_sso/main.py:143-156 | with the setting on and no superuser whose email contains `@<domain>`, the user becomes staff and superuser with one info message; nothing else changes |
| UserHelper.CheckForPermissions | django_microsoft_sso/main.py:158-175 | staff iff already staff or listed in either list; superuser iff already superuser or in the superuser list; flags are never cleared; the messages are exactly the staff-list message when the user's email is in the staff list, followed by the superuser-list message when it is in the superuser list |
| UserHelper.ApplyClaims | django_microsoft_sso/main.py:128-132 | role lists applied, names and username from the claims, password unusable; key, email and active flag kept |
| UserHelper.UpdateFromClaims | django_microsoft_sso/main.py:126-132 | the first-superuser check always runs; the claim update runs only for a new user or with always-update on; otherwise the user is unchanged except for the first-superuser flags; the messages are the first-superuser message when that check promotes, then the role-list messages when the update runs |
| UserHelper.FetchOrCreate | django_microsoft_sso/main.py:125 | the one user with the email, or a newly created one (`created` iff none existed) |
| UserHelper.SaveNewUser | django_microsoft_sso/main.py:124-133 | for an email no user has: one row is appended, active, with the next key, the claims' names and username, an unusable password, and staff/superuser exactly as the first-superuser check and the role lists decide, and exactly the messages those checks queue; links untouched; constraints kept |
| UserHelper.SaveExistingUser | django_microsoft_sso/main.py:124-133 | for the one user with the email: same key and active flag; superuser iff it was, or the first-superuser check promotes, or always-update is on and the email is in the superuser list; staff iff it was, or that check promotes, or always-update is on and the email is in either list; names kept unless always-update is on; the messages are exactly the first-superuser message when it promotes, then the role-list messages when always-update is on; every other row kept; links untouched; constraints kept |
| UserHelper.SaveClaimedUser | django_microsoft_sso/main.py:124-133 | the saved user has the mail claim and is active iff every existing match is; it is the new-user or the existing-user case as the lookup finds |
| UserHelper.SuperuserForDomainAfterCreate | django_microsoft_sso/main.py:125-147 | creating the user does not change the answer of the first-superuser query |
| UserHelper.LinkFields | django_microsoft_sso/main.py:135-139 | the link gets the claims' id, picture (null when absent) and preferred language |
| UserHelper.LinkFieldsAsWritten | django_microsoft_sso/main.py:137 | as written, the picture lookup raises KeyError exactly when the claims carry no picture |
| UserHelper.AttachLink | django_microsoft_sso/main.py:135-139 | the user's single link carries the claims' values, or the save raises DataTooLong; the user rows and every other user's link are unchanged |
| UserHelper.AttachLinkAsWritten | django_microsoft_sso/main.py:135-139 | as written: with a picture claim it is `AttachLink`; without one it raises KeyError after the (possibly new, all-null) link row is in the store, with every earlier link kept |
| UserHelper.GetOrCreateUser | django_microsoft_sso/main.py:123-141 | MultipleObjectsReturned is raised exactly when two rows hold the email. A new user gets the key, names, username, email, active flag and unusable password from the claims, with staff/superuser exactly as the first-superuser check and role lists decide. An existing user keeps its key, and its names unless always-update is on, and gets exactly the staff/superuser flags and messages `SaveExistingUser` states; a new user gets exactly the messages of the first-superuser check and the role lists; every other row is kept. Flags only rise. The returned user is active iff every existing match is. The link row equals the claims; every other link is unchanged. The store constraints are preserved |
| UserHelper.GetOrCreateUserAsWritten | django_microsoft_sso/main.py:123-141 | as written: equal to `GetOrCreateUser` when the claims carry a picture; without one (and at most one match) it raises KeyError("picture_raw_data") with the user saved (one row more when new) and its link row created |
| UserHelper.FindUser | django_microsoft_sso/main.py:177-181 | nothing iff no user has the mail claim's email; raises MultipleObjectsReturned exactly when two rows hold it; otherwise the user returned is the only one with that email; the store is only read |
| UrlParse.Urlparse | django_microsoft_sso/views.py:30 | the path never holds '?' or '#', nor a tab, CR or LF; the netloc never holds '/'; the only failure is "Invalid IPv6 URL", exactly when `urlsplit` fails |
| UrlParse.QueryCut | django_microsoft_sso/views.py:30 | `p?q#f`, for a plain rooted path `p`, parses to path `p`, query `q` and fragment `f`: everything from the first '?' is not path |
| UrlParse.FragmentCut | django_microsoft_sso/views.py:30 | `p#f` parses to path `p` and fragment `f`, even when `f` holds '?' |
| UrlParse.ParamsCut | django_microsoft_sso/views.py:30 | `p;a`, with no '/' in `a`, parses to path `p` and params `a` |
| UrlParse.UnbalancedHostFails | django_microsoft_sso/views.py:30 | a network location with a '[' and no ']' (or the reverse) makes `urlparse` raise "Invalid IPv6 URL" |
| UrlParse.AuthorityDropped | django_microsoft_sso/views.py:30 | for "", "http:" or "https:" followed by "//host" and a path, the parsed path is that path and the netloc is the host |
| UrlParse.PlainPathKept | django_microsoft_sso/views.py:30 | a plain path starting with a single '/' parses as itself |
| UrlParse.OpaqueAfterHttp | django_microsoft_sso/views.py:30 | after "http:", text that does not start with "//" is all path |
| Views.CleanParam | django_microsoft_sso/views.py:21-29 | an absent or empty `next` becomes the default; otherwise `next` itself or "//" + `next`, and the result always starts with "http" or "/"; a `next` starting with "/" is kept |
| Views.NextPathAsWritten | django_microsoft_sso/views.py:21-30 | the path of the cleaned `next` (or of the default); fails only on an unbalanced bracket; the stored path holds no tab, CR or LF |
| Views.QueryAndFragmentDropped | django_microsoft_sso/views.py:21-30 | a local `next` followed by "?query#fragment" is stored without them, as written and corrected |
| Views.FragmentDropped | django_microsoft_sso/views.py:21-30 | a local `next` followed by "#fragment" is stored without it, as written and corrected |
| Views.ParamsDropped | django_microsoft_sso/views.py:21-30 | a local `next` followed by ";params" is stored without them, as written and corrected |
| Views.NextPath | django_microsoft_sso/views.py:21-30 | the stored next path is always local (empty, or a single leading '/') and holds no tab, CR or LF; it equals the as-written path whenever that is local |
| Views.FourSlashesAsWritten | django_microsoft_sso/views.py:23-30 | as written, `next=////host/p` is stored as `//host/p`, which is not local |
| Views.HttpPrefixAsWritten | django_microsoft_sso/views.py:23-30 | as written, `next=http:<rest>` is stored as `<rest>`, e.g. "https://evil.com/x", which is not local |
| Views.ReRootNetworkPath | django_microsoft_sso/views.py:30 | the corrected path of `//host/p` is re-rooted to `/host/p` |
| Views.AbsoluteNextDiscarded | django_microsoft_sso/views.py:23-30 | `next` of the form "//host/p", "http://host/p" or "https://host/p" stores just "/p", by the code as written and by the corrected path alike |
| Views.BareHostDiscarded | django_microsoft_sso/views.py:23-30 | a bare "host/p" `next` is read as a host and stores just "/p", by the code as written and by the corrected path alike |
| Views.BareHostCase | django_microsoft_sso/views.py:23-30 | "bad-domain.com/secret/" and "www.bad-domain.com/secret/" store "/secret/", as written and corrected |
| Views.AbsoluteCase | django_microsoft_sso/views.py:23-30 | "//bad-domain.com/secret/", "http://bad-domain.com/secret/" and "https://malicious.example.com/secret/" store "/secret/", as written and corrected |
| Views.LocalNextKept | django_microsoft_sso/views.py:21-30 | a relative path such as "/secret/" is stored unchanged, by the code as written and by the corrected path alike |
| Views.MissingNextUsesDefault | django_microsoft_sso/views.py:21-30 | an absent or empty `next` stores the default next URL, by the code as written and by the corrected path alike |
| Views.StartLogin | django_microsoft_sso/views.py:18-44 | with the corrected next path: the session gets a key, an expiry of timeout*60, the flow and the (local) next path; nothing else in it changes; the redirect is the provider login URL |
| Views.StartLoginAsWritten | django_microsoft_sso/views.py:18-44 | as written: the session stores the path `urlparse` returns; it fails exactly when `StartLogin` does, differs from it only in the stored next path, and equals it whenever that path is local |
| Views.AuthErrorMessages | django_microsoft_sso/views.py:81-93 | the error message quoting the error, plus the credentials hint iff the error is "invalid_client" |
| Views.LoginBackend | django_microsoft_sso/views.py:138 | the backend `login` records: the configured one when set and non-empty, else the single entry of `AUTHENTICATION_BACKENDS`; `ImproperlyConfigured` with none, `ValueError` with several |
| Views.RedirectFault | django_microsoft_sso/views.py:141 | building the redirect raises `ValueError` exactly when `urlparse` fails on the target, and `DisallowedRedirect` exactly when the target's scheme is non-empty and not http, https or ftp; otherwise it succeeds |
| Views.LocalTargetAccepted | django_microsoft_sso/views.py:141 | a non-empty local target (what the corrected next path stores) never makes the redirect raise |
| Views.NetworkPathAccepted | django_microsoft_sso/views.py:141 | a "//host/path" target is accepted: it has no scheme |
| Views.ForeignSchemeRefused | django_microsoft_sso/views.py:141 | a target such as "javascript:..." whose lower-case scheme is not http, https or ftp raises `DisallowedRedirect` |
| Views.UnbalancedHostRefused | django_microsoft_sso/views.py:141 | a "//host/path" target whose host has an unbalanced bracket raises `ValueError` |
| Views.Finish | django_microsoft_sso/views.py:121-141 | no user or an inactive one fails; otherwise the access token is saved if configured and the hook runs; a login happens exactly when the user is active, the hook returns, `login` finds a backend and the redirect target is accepted; `login` first flushes the session when another user, or the same user with a different session auth hash, is logged in, so the saved token, the flow and the next URL are gone, and otherwise keeps every other key; it then records the user, the backend and the auth hash, the cookie-age expiry follows, and the redirect goes to the next URL read before the login, or the default; a raising hook or backend lookup escapes (the latter after the flush), and a refused target escapes as `ValueError` or `DisallowedRedirect` after the user has been logged in |
| Views.LoginOverAnotherUserFlushes | django_microsoft_sso/views.py:125-141 | a login over another user's session ends with no access token, flow or next URL, whatever was just saved, and still lands on the target read before the login |
| Views.StaleAuthHashFlushes | django_microsoft_sso/views.py:125-141 | the same user with a session auth hash other than the stored one (a new password, as `set_unusable_password` gives) also gets a flushed session |
| Views.FreshOrSameLoginKeeps | django_microsoft_sso/views.py:125-141 | a first login in the session, or the same user with the stored hash, keeps the flow and the next URL and has the access token exactly as configured |
| Views.LookupAndFinish | django_microsoft_sso/views.py:115-141 | a login happens exactly when the lookup yields an active user the hook lets through and a backend is found (`LogsIn`) and the redirect target is accepted; `LogsIn` with a refused target escapes with the redirect error and the user logged in; the logged-in user is the only user with the mail (auto-create off) or the one `get_or_create_user` saved (auto-create on); with auto-create off the store is unchanged; the constraints are preserved |
| Views.Callback | django_microsoft_sso/views.py:47-141 | each check in order fails with its own message when the earlier ones passed (disabled, no code, state mismatch, no token, token error, claims failure, email not allowed), and before the user lookup the store is unchanged. Once every check passes, a login happens exactly when the lookup yields an active user the hook lets through, a backend is found and the redirect target is accepted, and it logs in that user; without the last, the redirect error escapes with the user logged in; a login implies every check passed and ends with the cookie-age expiry and the stored next URL or the default. With auto-create off the store never changes. The constraints are preserved |
| Views.LoginLandsOnStoredPath | django_microsoft_sso/views.py:18-141 | with the corrected next path: after `start_login`, a callback carrying back the flow's state passes the state check; a stored next path never makes the redirect raise; the user is logged in when the other checks pass, the lookup succeeds and (without a stored path) the default target is accepted, and lands on the stored next path (local) or on the default |
| Views.AsWrittenLoginLeavesSite | django_microsoft_sso/views.py:18-141 | as written: after `start_login` with `next=////host/p`, the session holds "//host/p", and a callback that logs the user in (as it does when the checks pass and the lookup succeeds) redirects to that non-local target, which Django accepts |
| Views.AsWrittenForeignSchemeRaises | django_microsoft_sso/views.py:18-141 | as written: `next=http:<scheme>:<body>` stores "<scheme>:<body>"; for a scheme other than http, https or ftp, a callback that would log the user in logs them in and then escapes with `DisallowedRedirect` |
| Views.AsWrittenUnbalancedHostRaises | django_microsoft_sso/views.py:18-141 | as written: `next=////<host><path>` with an unbalanced bracket in the host is stored as "//<host><path>" without error; a callback that would log the user in logs them in and then escapes with `ValueError` |
| Views.UnbalancedHostExample | django_microsoft_sso/views.py:18-141 | `next=////[evil` is stored as "//[evil", which the redirect refuses with `ValueError` |
| Views.ForeignSchemeExample | django_microsoft_sso/views.py:18-141 | `next=http:javascript:alert(1)` is stored as "javascript:alert(1)", which the redirect refuses with `DisallowedRedirect` |

## Findings

| source | as written | input that shows it | evidently intended | confidence | as-written member | corrected member |
|---|---|---|---|---|---|---|
| django_microsoft_sso/views.py:23-30 | a `next` starting with "/" is parsed as given, and only its path is kept | `next=////evil.com/x` stores `//evil.com/x`; the callback then redirects there (views.py:141), and browsers read that as the host evil.com | the stored next path stays on the site, as the tests with hostile `next` values expect | not executed; follows from the modelled `urlparse` | Views.FourSlashesAsWritten | Views.NextPath |
| django_microsoft_sso/views.py:23-30 | a `next` starting with "http" is parsed as given, and only its path is kept | `next=http:https://evil.com/x` stores `https://evil.com/x` (an "http" scheme with an opaque path) | the stored next path stays on the site | not executed; follows from the modelled `urlparse` | Views.HttpPrefixAsWritten | Views.NextPath |
| django_microsoft_sso/main.py:137 | `user_info["picture_raw_data"]`, a key that `get_user_info` sets only when the photo request answers 200 (main.py:86-87) | an account without a profile photo, for which the photo endpoint does not answer 200: `KeyError` after the user row has been saved | a null picture (the column is nullable and `picture` handles it) | not executed | UserHelper.GetOrCreateUserAsWritten | UserHelper.GetOrCreateUser |

`Views.StartLogin` stores the corrected `Views.NextPath`; `Views.StartLoginAsWritten` stores the path as written, and `Views.AsWrittenLoginLeavesSite` follows the first row's input through the callback to the off-site redirect. The same as-written path can also store a target that Django refuses after the login: `Views.AsWrittenForeignSchemeRaises` and `Views.AsWrittenUnbalancedHostRaises`. `UserHelper.GetOrCreateUser` writes the link through `UserHelper.LinkFields`; `UserHelper.GetOrCreateUserAsWritten` goes through `UserHelper.LinkFieldsAsWritten` after the user save and the link creation, as `main.py` does.

## Left out

- `MicrosoftAuth.auth`, `get_user_info`, `get_auth_uri` and `get_user_token` make calls through the identity library and HTTP. Their results are parameters: the token result, the claims (or the text of the exception), the access token, the flow and the login URL. `initiate`, `result`, `flow` and `token_info`, which the views use, are not defined in `main.py` and also become parameters.
- The `scopes` property only returns the setting, `Conf.Config.scopes`.
- `send_message`, the logger and the messages framework are I/O. The messages the views queue appear as the outcome's list of strings. The views call `messages.add_message` directly, so `MICROSOFT_SSO_ENABLE_MESSAGES` plays no part.
- The pre-login hook is found by an `importlib` lookup of a dotted path. It is modelled as a function parameter that either returns or raises with a text.
- `microsoft_slo_view` is left out. It wraps Django's `LogoutView` and a `get_logout_url` that is not defined.
- Callable (per-request) settings and their type errors are left out. `conf.py` only reads plain values.
- `admin.py`, `urls.py`, `apps.py`, `hooks.py`, the migration and the example app are framework glue or demo code.
- Session storage is left out: persistence and session-key generation. The flush inside Django's `login` is modelled (`Views.KeepsSession`); its key cycling, which keeps the data under a new key, is not. The session record keeps only the keys the views use.
- The `user_logged_in` signal, which updates the user's `last_login`, is left out; the user record has no such column.
- Views.Callback: the failure redirects to `reverse(MICROSOFT_SSO_LOGIN_FAILED_URL)` are taken as accepted, because Django's `reverse` returns a path rooted at "/", which has no scheme. Only the success target goes through `Views.RedirectFault`, because it may be a stored next URL.
- `require_http_methods` rejects non-GET requests; that rejection is not modelled.
- The URL resolver is a total function parameter, so `NoReverseMatch` is not modelled.
- Graph claims that are JSON null are not modelled; every claim is a string. For example, a null `mail` would raise `AttributeError` in `split`.
- The host user table's own constraints are not modelled, such as a unique username or column widths. Only the package's link table constraints are.
- UserHelper.SuperuserForDomain: `email__contains` is modelled as a case-sensitive substring test, which is what PostgreSQL does. SQLite's `LIKE` ignores ASCII case.
- Models.SaveLink: a value wider than its column is rejected, as strict backends do. SQLite stores it anyway.
- Views.StartLogin: stores the corrected next path, so for a `next` such as `////evil.com/x` it keeps `/evil.com/x` where the code keeps `//evil.com/x`; the code's behaviour is `Views.StartLoginAsWritten`.
- UserHelper.GetOrCreateUser: writes a null picture for claims without one, where the code raises `KeyError` after saving the user and creating its link row; the code's behaviour is `UserHelper.GetOrCreateUserAsWritten`.
- Views.LookupAndFinish: builds on the corrected `UserHelper.GetOrCreateUser`, so with auto-create on, claims without a picture can end in a login here where the code ends in an uncaught `KeyError`.
- Views.Callback: builds on `Views.LookupAndFinish` and inherits the same difference for claims without a picture. Its session argument is whatever `start_login` stored, and a stored target Django refuses ends in the redirect error after the login, so both next-path variants are covered.
- Views.LoginLandsOnStoredPath: is about the corrected `Views.StartLogin`; as written, a login can land off the site, which `Views.AsWrittenLoginLeavesSite` states.
- Views.Finish: a `backend` attribute that the pre-login hook might set on the user is not modelled; `login` is taken to see a user loaded from the database, which has none.
- Views.Callback: a user who is found but inactive fails without a login. With auto-create on, `get_or_create_user` has already updated the store by then, so the store does change.
- Views.RedirectFault: only the scheme test and `urlparse`'s own failure are modelled; other checks a Django release may make on the target, such as a length limit, are not.
- UrlParse.Urlparse: the NFKC check on non-ASCII network locations and the validation of a bracketed IPv6 host are not modelled. Only the unbalanced-bracket `ValueError` is.
- `email_is_valid` reads the key `verified_email`, while `get_user_info` writes `email_verified`. The value only feeds a log line, so this has no effect on any result.

=== FILE: base64.dfy ===
/** Base 64 encoding as defined in section 4 of RFC 4648 (the standard
    alphabet with '=' padding), which is what Python's `base64.b64encode`
    produces, and the matching decoder used to state that the encoding
    loses nothing. */
module Base64 {
  import opened Wrappers

  /** A byte of a Python `bytes` value. */
  type byte = x: int | 0 <= x < 256

  /** A 6-bit group. */
  type sextet = x: int | 0 <= x < 64

  /** The RFC 4648 table: 0-25 'A'-'Z', 26-51 'a'-'z', 52-61 '0'-'9',
      62 '+', 63 '/'. */
  function Char(x: sextet): char {
    if x < 26 then ('A' as int + x) as char
    else if x < 52 then ('a' as int + (x - 26)) as char
    else if x < 62 then ('0' as int + (x - 52)) as char
    else if x == 62 then '+'
    else '/'
  }

  predicate IsAlphabetChar(c: char) {
    'A' <= c <= 'Z' || 'a' <= c <= 'z' || '0' <= c <= '9' || c == '+' || c == '/'
  }

  const Pad: char := '='

  /** The value of an alphabet character: the inverse of the table. */
  function Index(c: char): (x: sextet)
    requires IsAlphabetChar(c)
    ensures Char(x) == c
  {
    if 'A' <= c <= 'Z' then c as int - 'A' as int
    else if 'a' <= c <= 'z' then c as int - 'a' as int + 26
    else if '0' <= c <= '9' then c as int - '0' as int + 52
    else if c == '+' then 62
    else 63
  }

  lemma CharIndex(x: sextet)
    ensures IsAlphabetChar(Char(x)) && Index(Char(x)) == x
  {
  }

  /** The four sextets of three bytes (the bits of the absent bytes of a
      short final group read as zero). */
  function Sextets(b0: byte, b1: byte, b2: byte): (sextet, sextet, sextet, sextet) {
    (b0 / 4, (b0 % 4) * 16 + b1 / 16, (b1 % 16) * 4 + b2 / 64, b2 % 64)
  }

  /** `n` bytes (1 to 3; the missing ones passed as 0) as four characters. */
  function Quad(b0: byte, b1: byte, b2: byte, n: nat): (s: string)
    requires 1 <= n <= 3
    requires n < 2 ==> b1 == 0
    requires n < 3 ==> b2 == 0
    ensures |s| == 4
    ensures forall k | 0 <= k < n + 1 :: IsAlphabetChar(s[k])
    ensures forall k | n + 1 <= k < 4 :: s[k] == Pad
  {
    var (x0, x1, x2, x3) := Sextets(b0, b1, b2);
    CharIndex(x0);
    CharIndex(x1);
    CharIndex(x2);
    CharIndex(x3);
    [Char(x0), Char(x1), if n >= 2 then Char(x2) else Pad, if n == 3 then Char(x3) else Pad]
  }

  /** How many '=' end the encoding of `n` bytes. */
  function Padding(n: nat): nat {
    if n % 3 == 0 then 0 else 3 - n % 3
  }

  lemma PaddingStep(n: nat)
    requires n >= 3
    ensures (n + 2) / 3 == (n - 3 + 2) / 3 + 1
    ensures Padding(n - 3) == Padding(n)
  {
  }

  /** `b64encode`: every group of three bytes becomes four characters; a
      final group of one or two bytes is padded with "==" or "=". */
  function Encode(b: seq<byte>): (s: string)
    ensures |s| == 4 * ((|b| + 2) / 3)
    ensures forall k | 0 <= k < |s| - Padding(|b|) :: IsAlphabetChar(s[k])
    ensures forall k | |s| - Padding(|b|) <= k < |s| :: s[k] == Pad
    decreases |b|
  {
    if |b| == 0 then ""
    else if |b| == 1 then Quad(b[0], 0, 0, 1)
    else if |b| == 2 then Quad(b[0], b[1], 0, 2)
    else
      var head := Quad(b[0], b[1], b[2], 3);
      var tail := Encode(b[3..]);
      PaddingStep(|b|);
      var s := head + tail;
      assert forall k | 0 <= k < 4 :: s[k] == head[k];
      assert forall k | 4 <= k < |s| :: s[k] == tail[k - 4];
      s
  }

  /** Four characters back to one, two or three bytes. */
  function DecodeQuad(s: string): (r: Option<seq<byte>>)
    requires |s| == 4
  {
    if !(IsAlphabetChar(s[0]) && IsAlphabetChar(s[1])) then None
    else
      var x0 := Index(s[0]);
      var x1 := Index(s[1]);
      var b0 := x0 * 4 + x1 / 16;
      if s[2] == Pad && s[3] == Pad then Some([b0])
      else if !IsAlphabetChar(s[2]) then None
      else
        var x2 := Index(s[2]);
        var b1 := (x1 % 16) * 16 + x2 / 4;
        if s[3] == Pad then Some([b0, b1])
        else if !IsAlphabetChar(s[3]) then None
        else Some([b0, b1, (x2 % 4) * 64 + Index(s[3])])
  }

  /** The decoder: padding is accepted only in the last group. */
  function Decode(s: string): Option<seq<byte>>
    decreases |s|
  {
    if |s| == 0 then Some([])
    else if |s| < 4 then None
    else if |s| == 4 then DecodeQuad(s)
    else if Pad in s[..4] then None
    else
      match (DecodeQuad(s[..4]), Decode(s[4..]))
      case (Some(head), Some(tail)) => Some(head + tail)
      case _ => None
  }

  /** The bytes are recovered from their sextets. */
  lemma SextetsRecover(b0: byte, b1: byte, b2: byte)
    ensures var (x0, x1, x2, x3) := Sextets(b0, b1, b2);
      && x0 * 4 + x1 / 16 == b0
      && (x1 % 16) * 16 + x2 / 4 == b1
      && (x2 % 4) * 64 + x3 == b2
  {
  }

  /** The characters of a group decode to the sextets they encode. */
  lemma QuadIndices(b0: byte, b1: byte, b2: byte, n: nat)
    requires 1 <= n <= 3
    requires n < 2 ==> b1 == 0
    requires n < 3 ==> b2 == 0
    ensures var s := Quad(b0, b1, b2, n);
      var (x0, x1, x2, x3) := Sextets(b0, b1, b2);
      && IsAlphabetChar(s[0]) && Index(s[0]) == x0
      && IsAlphabetChar(s[1]) && Index(s[1]) == x1
      && (n >= 2 ==> IsAlphabetChar(s[2]) && s[2] != Pad && Index(s[2]) == x2)
      && (n == 3 ==> IsAlphabetChar(s[3]) && s[3] != Pad && Index(s[3]) == x3)
      && (n < 2 ==> s[2] == Pad)
      && (n < 3 ==> s[3] == Pad)
  {
    var (x0, x1, x2, x3) := Sextets(b0, b1, b2);
    CharIndex(x0);
    CharIndex(x1);
    CharIndex(x2);
    CharIndex(x3);
  }

  /** One group decodes back to the bytes it came from. */
  lemma DecodeQuadOfQuad(b0: byte, b1: byte, b2: byte, n: nat)
    requires 1 <= n <= 3
    requires n < 2 ==> b1 == 0
    requires n < 3 ==> b2 == 0
    ensures DecodeQuad(Quad(b0, b1, b2, n)) == Some([b0, b1, b2][..n])
  {
    QuadIndices(b0, b1, b2, n);
    SextetsRecover(b0, b1, b2);
    if n == 1 {
      assert [b0, b1, b2][..1] == [b0];
    } else if n == 2 {
      assert [b0, b1, b2][..2] == [b0, b1];
    } else {
      assert [b0, b1, b2][..3] == [b0, b1, b2];
    }
  }

  /** Decoding an encoding gives back the bytes: the encoding is lossless. */
  lemma {:induction false} DecodeEncode(b: seq<byte>)
    ensures Decode(Encode(b)) == Some(b)
    decreases |b|
  {
    if |b| == 0 {
    } else if |b| == 1 {
      DecodeQuadOfQuad(b[0], 0, 0, 1);
      assert [b[0], 0, 0][..1] == b;
    } else if |b| == 2 {
      DecodeQuadOfQuad(b[0], b[1], 0, 2);
      assert [b[0], b[1], 0][..2] == b;
    } else {
      var head := Quad(b[0], b[1], b[2], 3);
      var tail := Encode(b[3..]);
      DecodeQuadOfQuad(b[0], b[1], b[2], 3);
      assert [b[0], b[1], b[2]][..3] == b[..3];
      if |b| == 3 {
        assert tail == "";
        assert Encode(b) == head;
        assert b == b[..3];
      } else {
        DecodeEncode(b[3..]);
        var s := head + tail;
        assert Encode(b) == s;
        assert s[..4] == head && s[4..] == tail;
        assert Pad !in head;
        assert b == b[..3] + b[3..];
      }
    }
  }

  /** The test vectors of section 10 of RFC 4648, for the bytes of "f",
      "fo", "foo", "foob", "fooba" and "foobar". */
  lemma {:induction false} TestVectors()
    ensures Encode([]) == ""
    ensures Encode([102]) == "Zg=="
    ensures Encode([102, 111]) == "Zm8="
    ensures Encode([102, 111, 111]) == "Zm9v"
    ensures Encode([102, 111, 111, 98]) == "Zm9vYg=="
    ensures Encode([102, 111, 111, 98, 97]) == "Zm9vYmE="
    ensures Encode([102, 111, 111, 98, 97, 114]) == "Zm9vYmFy"
  {
    assert [102, 111, 111, 98][3..] == [98];
    assert [102, 111, 111, 98, 97][3..] == [98, 97];
    assert [102, 111, 111, 98, 97, 114][3..] == [98, 97, 114];
  }
}

=== FILE: conf.dfy ===
/** `django_microsoft_sso/conf.py`: every setting is read from the host's
    Django settings when the host defines it, and otherwise takes the
    package default. The host settings object is modelled as a record with
    one optional field per setting: `None` means the host does not define
    that name. */
module Conf {
  import opened Wrappers

  /** The resolved settings, one field per `MICROSOFT_SSO_*` name (plus
      `MICROSOFT_SLO_ENABLED` and `SSO_USE_ALTERNATE_W003`). A setting whose
      default is Python `None` has an `Option` type. */
  datatype Config = Config(
    applicationId: Option<string>,
    clientSecret: Option<string>,
    scopes: seq<string>,
    timeout: int,
    allowableDomains: seq<string>,
    autoCreateFirstSuperuser: bool,
    sessionCookieAge: int,
    enabled: bool,
    superuserList: seq<string>,
    staffList: seq<string>,
    callbackDomain: Option<string>,
    autoCreateUsers: bool,
    authenticationBackend: Option<string>,
    preValidateCallback: string,
    preCreateCallback: string,
    preLoginCallback: string,
    logoUrl: string,
    text: string,
    nextUrl: string,
    loginFailedUrl: string,
    saveAccessToken: bool,
    alwaysUpdateUserData: bool,
    logoutRedirectPath: string,
    sloEnabled: bool,
    useAlternateW003: bool,
    authority: Option<string>,
    uniqueEmail: bool,
    enableLogs: bool,
    enableMessages: bool,
    saveBasicMicrosoftInfo: bool,
    showFailedLoginMessage: bool)

  /** What the host's settings module defines: `Some(v)` when the name is
      present (with `v` its value, which for the `None`-default settings may
      itself be `None`), `None` when it is absent. */
  datatype HostSettings = HostSettings(
    applicationId: Option<Option<string>>,
    clientSecret: Option<Option<string>>,
    scopes: Option<seq<string>>,
    timeout: Option<int>,
    allowableDomains: Option<seq<string>>,
    autoCreateFirstSuperuser: Option<bool>,
    sessionCookieAge: Option<int>,
    enabled: Option<bool>,
    superuserList: Option<seq<string>>,
    staffList: Option<seq<string>>,
    callbackDomain: Option<Option<string>>,
    autoCreateUsers: Option<bool>,
    authenticationBackend: Option<Option<string>>,
    preValidateCallback: Option<string>,
    preCreateCallback: Option<string>,
    preLoginCallback: Option<string>,
    logoUrl: Option<string>,
    text: Option<string>,
    nextUrl: Option<string>,
    loginFailedUrl: Option<string>,
    saveAccessToken: Option<bool>,
    alwaysUpdateUserData: Option<bool>,
    logoutRedirectPath: Option<string>,
    sloEnabled: Option<bool>,
    useAlternateW003: Option<bool>,
    authority: Option<Option<string>>,
    uniqueEmail: Option<bool>,
    enableLogs: Option<bool>,
    enableMessages: Option<bool>,
    saveBasicMicrosoftInfo: Option<bool>,
    showFailedLoginMessage: Option<bool>)

  /** A settings module that defines none of the package's names. */
  const NoHostSettings := HostSettings(
    None, None, None, None, None, None, None, None, None, None, None, None,
    None, None, None, None, None, None, None, None, None, None, None, None,
    None, None, None, None, None, None, None)

  // Package defaults
  const DefaultScopes: seq<string> := ["User.ReadBasic.All"]
  const DefaultTimeout := 10
  const DefaultSessionCookieAge := 3600
  const DefaultPreValidateCallback := "django_microsoft_sso.hooks.pre_validate_user"
  const DefaultPreCreateCallback := "django_microsoft_sso.hooks.pre_create_user"
  const DefaultPreLoginCallback := "django_microsoft_sso.hooks.pre_login_user"
  const DefaultLogoUrl := "https://purepng.com/public/uploads/large/purepng.com-microsoft-logo-iconlogobrand-logoiconslogos-251519939091wmudn.png"
  const DefaultText := "Sign in with Microsoft"
  /** The URL name the success, failure and logout redirects default to. */
  const AdminIndex := "admin:index"

  /** A setting's value: the host's when it defines one, else the default. */
  function Setting<T>(defined: Option<T>, default: T): (v: T)
    ensures defined.Some? ==> v == defined.value
    ensures defined.None? ==> v == default
  {
    defined.GetOr(default)
  }

  /** Reading every setting with its default, as the module does at import:
      `getattr(settings, NAME, default)` is the host's value when the name is
      defined (even when that value is `None`) and the default otherwise. */
  function Resolve(h: HostSettings): (c: Config)
    ensures h.applicationId.Some? ==> c.applicationId == h.applicationId.value
    ensures h.applicationId.None? ==> c.applicationId.None?
    ensures h.clientSecret.Some? ==> c.clientSecret == h.clientSecret.value
    ensures h.clientSecret.None? ==> c.clientSecret.None?
    ensures h.scopes.Some? ==> c.scopes == h.scopes.value
    ensures h.scopes.None? ==> c.scopes == DefaultScopes
    ensures h.timeout.Some? ==> c.timeout == h.timeout.value
    ensures h.timeout.None? ==> c.timeout == DefaultTimeout
    ensures h.allowableDomains.Some? ==> c.allowableDomains == h.allowableDomains.value
    ensures h.allowableDomains.None? ==> c.allowableDomains == []
    ensures h.autoCreateFirstSuperuser.Some? ==> c.autoCreateFirstSuperuser == h.autoCreateFirstSuperuser.value
    ensures h.autoCreateFirstSuperuser.None? ==> c.autoCreateFirstSuperuser == false
    ensures h.sessionCookieAge.Some? ==> c.sessionCookieAge == h.sessionCookieAge.value
    ensures h.sessionCookieAge.None? ==> c.sessionCookieAge == DefaultSessionCookieAge
    ensures h.enabled.Some? ==> c.enabled == h.enabled.value
    ensures h.enabled.None? ==> c.enabled == true
    ensures h.superuserList.Some? ==> c.superuserList == h.superuserList.value
    ensures h.superuserList.None? ==> c.superuserList == []
    ensures h.staffList.Some? ==> c.staffList == h.staffList.value
    ensures h.staffList.None? ==> c.staffList == []
    ensures h.callbackDomain.Some? ==> c.callbackDomain == h.callbackDomain.value
    ensures h.callbackDomain.None? ==> c.callbackDomain.None?
    ensures h.autoCreateUsers.Some? ==> c.autoCreateUsers == h.autoCreateUsers.value
    ensures h.autoCreateUsers.None? ==> c.autoCreateUsers == true
    ensures h.authenticationBackend.Some? ==> c.authenticationBackend == h.authenticationBackend.value
    ensures h.authenticationBackend.None? ==> c.authenticationBackend.None?
    ensures h.preValidateCallback.Some? ==> c.preValidateCallback == h.preValidateCallback.value
    ensures h.preValidateCallback.None? ==> c.preValidateCallback == DefaultPreValidateCallback
    ensures h.preCreateCallback.Some? ==> c.preCreateCallback == h.preCreateCallback.value
    ensures h.preCreateCallback.None? ==> c.preCreateCallback == DefaultPreCreateCallback
    ensures h.preLoginCallback.Some? ==> c.preLoginCallback == h.preLoginCallback.value
    ensures h.preLoginCallback.None? ==> c.preLoginCallback == DefaultPreLoginCallback
    ensures h.logoUrl.Some? ==> c.logoUrl == h.logoUrl.value
    ensures h.logoUrl.None? ==> c.logoUrl == DefaultLogoUrl
    ensures h.text.Some? ==> c.text == h.text.value
    ensures h.text.None? ==> c.text == DefaultText
    ensures h.nextUrl.Some? ==> c.nextUrl == h.nextUrl.value
    ensures h.nextUrl.None? ==> c.nextUrl == AdminIndex
    ensures h.loginFailedUrl.Some? ==> c.loginFailedUrl == h.loginFailedUrl.value
    ensures h.loginFailedUrl.None? ==> c.loginFailedUrl == AdminIndex
    ensures h.saveAccessToken.Some? ==> c.saveAccessToken == h.saveAccessToken.value
    ensures h.saveAccessToken.None? ==> c.saveAccessToken == false
    ensures h.alwaysUpdateUserData.Some? ==> c.alwaysUpdateUserData == h.alwaysUpdateUserData.value
    ensures h.alwaysUpdateUserData.None? ==> c.alwaysUpdateUserData == false
    ensures h.logoutRedirectPath.Some? ==> c.logoutRedirectPath == h.logoutRedirectPath.value
    ensures h.logoutRedirectPath.None? ==> c.logoutRedirectPath == AdminIndex
    ensures h.sloEnabled.Some? ==> c.sloEnabled == h.sloEnabled.value
    ensures h.sloEnabled.None? ==> c.sloEnabled == false
    ensures h.useAlternateW003.Some? ==> c.useAlternateW003 == h.useAlternateW003.value
    ensures h.useAlternateW003.None? ==> c.useAlternateW003 == false
    ensures h.authority.Some? ==> c.authority == h.authority.value
    ensures h.authority.None? ==> c.authority.None?
    ensures h.uniqueEmail.Some? ==> c.uniqueEmail == h.uniqueEmail.value
    ensures h.uniqueEmail.None? ==> c.uniqueEmail == false
    ensures h.enableLogs.Some? ==> c.enableLogs == h.enableLogs.value
    ensures h.enableLogs.None? ==> c.enableLogs == true
    ensures h.enableMessages.Some? ==> c.enableMessages == h.enableMessages.value
    ensures h.enableMessages.None? ==> c.enableMessages == true
    ensures h.saveBasicMicrosoftInfo.Some? ==> c.saveBasicMicrosoftInfo == h.saveBasicMicrosoftInfo.value
    ensures h.saveBasicMicrosoftInfo.None? ==> c.saveBasicMicrosoftInfo == true
    ensures h.showFailedLoginMessage.Some? ==> c.showFailedLoginMessage == h.showFailedLoginMessage.value
    ensures h.showFailedLoginMessage.None? ==> c.showFailedLoginMessage == false
  {
    Config(
      Setting(h.applicationId, None),
      Setting(h.clientSecret, None),
      Setting(h.scopes, DefaultScopes),
      Setting(h.timeout, DefaultTimeout),
      Setting(h.allowableDomains, []),
      Setting(h.autoCreateFirstSuperuser, false),
      Setting(h.sessionCookieAge, DefaultSessionCookieAge),
      Setting(h.enabled, true),
      Setting(h.superuserList, []),
      Setting(h.staffList, []),
      Setting(h.callbackDomain, None),
      Setting(h.autoCreateUsers, true),
      Setting(h.authenticationBackend, None),
      Setting(h.preValidateCallback, DefaultPreValidateCallback),
      Setting(h.preCreateCallback, DefaultPreCreateCallback),
      Setting(h.preLoginCallback, DefaultPreLoginCallback),
      Setting(h.logoUrl, DefaultLogoUrl),
      Setting(h.text, DefaultText),
      Setting(h.nextUrl, AdminIndex),
      Setting(h.loginFailedUrl, AdminIndex),
      Setting(h.saveAccessToken, false),
      Setting(h.alwaysUpdateUserData, false),
      Setting(h.logoutRedirectPath, AdminIndex),
      Setting(h.sloEnabled, false),
      Setting(h.useAlternateW003, false),
      Setting(h.authority, None),
      Setting(h.uniqueEmail, false),
      Setting(h.enableLogs, true),
      Setting(h.enableMessages, true),
      Setting(h.saveBasicMicrosoftInfo, true),
      Setting(h.showFailedLoginMessage, false))
  }

  /** A settings module that defines every name, with the values of `c`. */
  function Define(c: Config): HostSettings {
    HostSettings(
      Some(c.applicationId), Some(c.clientSecret), Some(c.scopes), Some(c.timeout),
      Some(c.allowableDomains), Some(c.autoCreateFirstSuperuser), Some(c.sessionCookieAge),
      Some(c.enabled), Some(c.superuserList), Some(c.staffList), Some(c.callbackDomain),
      Some(c.autoCreateUsers), Some(c.authenticationBackend), Some(c.preValidateCallback),
      Some(c.preCreateCallback), Some(c.preLoginCallback), Some(c.logoUrl), Some(c.text),
      Some(c.nextUrl), Some(c.loginFailedUrl), Some(c.saveAccessToken),
      Some(c.alwaysUpdateUserData), Some(c.logoutRedirectPath), Some(c.sloEnabled),
      Some(c.useAlternateW003), Some(c.authority), Some(c.uniqueEmail), Some(c.enableLogs),
      Some(c.enableMessages), Some(c.saveBasicMicrosoftInfo), Some(c.showFailedLoginMessage))
  }

  /** A host that defines every setting gets exactly its own values: no
      default overrides a defined name, whatever its value. */
  lemma ResolveDefined(c: Config)
    ensures Resolve(Define(c)) == c
  {
  }

  /** A host that defines nothing gets the package defaults. */
  lemma ResolveNothingDefined()
    ensures Resolve(NoHostSettings) == Config(
      None, None, ["User.ReadBasic.All"], 10, [], false, 3600, true, [], [], None, true, None,
      DefaultPreValidateCallback, DefaultPreCreateCallback, DefaultPreLoginCallback,
      DefaultLogoUrl, "Sign in with Microsoft", "admin:index", "admin:index", false, false,
      "admin:index", false, false, None, false, true, true, true, false)
  {
  }

  /** The logger's per-package switch: the set of package names whose log
      records are dropped. */
  datatype LoggerState = LoggerState(disabled: set<string>)

  const PackageName := "django_microsoft_sso"

  /** The import-time `logger.enable`/`logger.disable` of the package,
      chosen by `MICROSOFT_SSO_ENABLE_LOGS`. Other packages' switches are
      left alone. */
  function ApplyLogSetting(c: Config, s: LoggerState): (r: LoggerState)
    ensures (PackageName !in r.disabled) == c.enableLogs
    ensures r.disabled - {PackageName} == s.disabled - {PackageName}
  {
    if c.enableLogs then LoggerState(s.disabled - {PackageName})
    else LoggerState(s.disabled + {PackageName})
  }

  /** Re-reading the settings (a module reload) leaves the switch as it is. */
  lemma ApplyLogSettingIdempotent(c: Config, s: LoggerState)
    ensures ApplyLogSetting(c, ApplyLogSetting(c, s)) == ApplyLogSetting(c, s)
  {
    var once := ApplyLogSetting(c, s);
    var twice := ApplyLogSetting(c, once);
    assert twice.disabled == once.disabled;
  }
}

=== FILE: main.dfy ===
/** `MicrosoftAuth` of `django_microsoft_sso/main.py`: the callback URI the
    identity provider is told to send the user back to. The identity
    library calls (`auth`, `get_user_info`, `get_auth_uri`) are not part of
    this model; their results reach the views as parameters. */
module MicrosoftAuth {
  import opened Wrappers
  import opened PyStr
  import Conf
  import UrlParse

  /** What the redirect URI is built from: the request's `META`, its
      `scheme`, and the domain of the current `Site`. */
  datatype Request = Request(meta: map<string, string>, scheme: string, siteDomain: string)

  const ForwardedProto := "HTTP_X_FORWARDED_PROTO"

  /** `get_netloc`: the configured callback domain when it is set and not
      empty, otherwise the current site's domain. */
  function GetNetloc(cfg: Conf.Config, req: Request): (r: string)
    ensures r == req.siteDomain || cfg.callbackDomain == Some(r)
    ensures r != req.siteDomain ==> TruthyOpt(cfg.callbackDomain)
    ensures TruthyOpt(cfg.callbackDomain) ==> r == cfg.callbackDomain.value
  {
    if TruthyOpt(cfg.callbackDomain) then cfg.callbackDomain.value else req.siteDomain
  }

  /** The scheme the user's browser sees: the reverse proxy's
      `X-Forwarded-Proto` when it sent one, else the request's own. */
  function Scheme(req: Request): string {
    if ForwardedProto in req.meta then req.meta[ForwardedProto] else req.scheme
  }

  /** `get_redirect_uri`: `<scheme>://<netloc><callback path>`, where the
      callback path is what the URL resolver gives for the package's
      callback view. */
  function GetRedirectUri(cfg: Conf.Config, req: Request, callbackPath: string): (r: string)
    ensures StartsWith(r, Scheme(req) + "://")
    ensures r[|Scheme(req)| + 3..] == GetNetloc(cfg, req) + callbackPath
  {
    var prefix := Scheme(req) + "://";
    var r := prefix + GetNetloc(cfg, req) + callbackPath;
    assert r[..|prefix|] == prefix;
    r
  }

  /** Parsing the redirect URI gives back its parts: for an "http" or
      "https" scheme, a host without delimiters and a plain callback path,
      the network location is the chosen netloc and the path is the
      callback path. */
  lemma RedirectUriParses(cfg: Conf.Config, req: Request, callbackPath: string)
    requires Scheme(req) == "http" || Scheme(req) == "https"
    requires UrlParse.PlainHost(GetNetloc(cfg, req)) && UrlParse.PlainTail(callbackPath)
    ensures var r := UrlParse.Urlparse(GetRedirectUri(cfg, req, callbackPath));
      && r.Success?
      && r.value.netloc == GetNetloc(cfg, req)
      && r.value.path == callbackPath
  {
    var uri := GetRedirectUri(cfg, req, callbackPath);
    var prefix := Scheme(req) + ":";
    assert uri == prefix + "//" + GetNetloc(cfg, req) + callbackPath;
    UrlParse.AuthorityDropped(prefix, GetNetloc(cfg, req), callbackPath);
  }
}

/** `UserHelper` of `django_microsoft_sso/main.py`: deciding whether the
    provider's claims may log in, and reconciling them with the user store
    and the link table. */
module UserHelper {
  import opened Wrappers
  import opened PyStr
  import Conf
  import Base64
  import opened Models

  /** The keys of the provider's user-info dictionary that the helper reads.
      `pictureRawData` is absent when the photo request did not answer 200;
      `verifiedEmail` is the `verified_email` key, which is read and logged
      only. */
  datatype Claims = Claims(
    id: string,
    mail: string,
    givenName: string,
    surname: string,
    userPrincipalName: string,
    preferredLanguage: string,
    pictureRawData: Option<seq<Base64.byte>>,
    verifiedEmail: Option<bool>)

  /** `user_email` */
  function UserEmail(c: Claims): string {
    c.mail
  }

  /** `email.split("@")[-1]`: the text after the last '@', or all of it. */
  function EmailDomain(email: string): string {
    LastPart(email, '@')
  }

  /** The acceptance rule: some configured entry contains the email's domain
      as a substring. */
  predicate EmailAllowed(domains: seq<string>, email: string) {
    exists i | 0 <= i < |domains| :: Contains(domains[i], EmailDomain(email))
  }

  /** `email_is_valid`: the loop over the allowable domains. The
      verified-email claim is consulted only for a log line and does not
      affect the answer. */
  method EmailIsValid(cfg: Conf.Config, c: Claims) returns (valid: bool)
    ensures valid <==> EmailAllowed(cfg.allowableDomains, UserEmail(c))
    ensures cfg.allowableDomains == [] ==> !valid
  {
    var domain := EmailDomain(UserEmail(c));
    valid := false;
    for i := 0 to |cfg.allowableDomains|
      invariant valid <==> exists k | 0 <= k < i :: Contains(cfg.allowableDomains[k], domain)
    {
      if Contains(cfg.allowableDomains[i], domain) {
        valid := true;
      }
    }
  }

  /** An email whose domain is listed verbatim is accepted. */
  lemma ListedDomainAllowed(domains: seq<string>, local: string, domain: string)
    requires domain in domains && '@' !in domain
    ensures EmailAllowed(domains, local + "@" + domain)
  {
    LastPartOfJoined(local, '@', domain);
    var i :| 0 <= i < |domains| && domains[i] == domain;
    assert OccursAt(domains[i], domain, 0);
  }

  /** The check is a substring test, not a domain match: a domain that is
      only part of a listed entry is accepted too. */
  lemma PartialDomainAllowed()
    ensures EmailAllowed(["dailyplanet.com"], "kalel@planet.com")
  {
    LastPartOfJoined("kalel", '@', "planet.com");
    assert "kalel@planet.com" == "kalel" + "@" + "planet.com";
    assert EmailDomain("kalel@planet.com") == "planet.com";
    assert OccursAt("dailyplanet.com", "planet.com", 5);
    assert Contains(["dailyplanet.com"][0], "planet.com");
  }

  /** An email ending in '@' has an empty domain, which every entry
      contains. */
  lemma EmptyDomainAllowed(domains: seq<string>, local: string)
    requires |domains| > 0
    ensures EmailAllowed(domains, local + "@")
  {
    LastPartOfJoined(local, '@', "");
    assert local + "@" == local + "@" + "";
    assert OccursAt(domains[0], "", 0);
  }

  // ---------------------------------------------------------------------
  // Permissions
  // ---------------------------------------------------------------------

  /** Some superuser's email contains `@<domain>`: the
      `filter(is_superuser=True, email__contains=...)` of the first-superuser
      check. */
  predicate SuperuserForDomain(st: Store, domain: string) {
    exists u | u in st.users :: u.isSuperuser && Contains(u.email, "@" + domain)
  }

  /** Whether the first-superuser check promotes a user with this email. */
  predicate PromotesFirstSuperuser(cfg: Conf.Config, st: Store, email: string) {
    cfg.autoCreateFirstSuperuser && !SuperuserForDomain(st, EmailDomain(email))
  }

  function FirstSuperuserMessage(email: string): string {
    "MICROSOFT_SSO_AUTO_CREATE_FIRST_SUPERUSER is True. Adding SuperUser status to email: " + email
  }

  function StaffMessage(email: string): string {
    "User email: " + email + " in MICROSOFT_SSO_STAFF_LIST. Added Staff Permission."
  }

  function SuperuserMessage(email: string): string {
    "User email: " + email + " in MICROSOFT_SSO_SUPERUSER_LIST. Added SuperUser Permission."
  }

  /** `check_first_super_user`: with the setting on and no superuser yet
      for the email's domain, the user becomes staff and superuser (and an
      info message is queued). Nothing else about the user changes. */
  function CheckFirstSuperUser(cfg: Conf.Config, email: string, u: User, st: Store): (r: (User, seq<string>))
    ensures r.0.isSuperuser <==> u.isSuperuser || PromotesFirstSuperuser(cfg, st, email)
    ensures r.0.isStaff <==> u.isStaff || PromotesFirstSuperuser(cfg, st, email)
    ensures r.0.(isStaff := u.isStaff, isSuperuser := u.isSuperuser) == u
    ensures r.1 == (if PromotesFirstSuperuser(cfg, st, email) then [FirstSuperuserMessage(email)] else [])
  {
    if PromotesFirstSuperuser(cfg, st, email) then
      (u.(isSuperuser := true, isStaff := true), [FirstSuperuserMessage(email)])
    else (u, [])
  }

  /** The messages `check_for_permissions` queues for a user whose stored
      email is `listed`: the staff one, then the superuser one. */
  function PermissionMessages(cfg: Conf.Config, email: string, listed: string): seq<string> {
    (if listed in cfg.staffList then [StaffMessage(email)] else [])
    + (if listed in cfg.superuserList then [SuperuserMessage(email)] else [])
  }

  /** `check_for_permissions`: membership of the user's email in the staff
      list grants staff; in the superuser list, staff and superuser. Flags
      are only ever raised. */
  function CheckForPermissions(cfg: Conf.Config, email: string, u: User): (r: (User, seq<string>))
    ensures r.0.isStaff <==> u.isStaff || u.email in cfg.staffList || u.email in cfg.superuserList
    ensures r.0.isSuperuser <==> u.isSuperuser || u.email in cfg.superuserList
    ensures r.0.(isStaff := u.isStaff, isSuperuser := u.isSuperuser) == u
    ensures |r.1| == (if u.email in cfg.staffList then 1 else 0) + (if u.email in cfg.superuserList then 1 else 0)
    ensures r.1 == PermissionMessages(cfg, email, u.email)
  {
    var (s, m1) := if u.email in cfg.staffList then (u.(isStaff := true), [StaffMessage(email)]) else (u, []);
    var (t, m2) := if u.email in cfg.superuserList then (s.(isSuperuser := true, isStaff := true), [SuperuserMessage(email)]) else (s, []);
    (t, m1 + m2)
  }

  // ---------------------------------------------------------------------
  // The link fields
  // ---------------------------------------------------------------------

  /** The link columns as `get_or_create_user` writes them, with the
      picture read as `user_info.get("picture_raw_data")`: a user without a
      photo gets a null picture. */
  function LinkFields(c: Claims, l: Link): (r: Link)
    ensures r.userId == l.userId
    ensures r.microsoftId == Some(c.id) && r.locale == Some(c.preferredLanguage)
    ensures r.pictureRaw == c.pictureRawData
  {
    l.(microsoftId := Some(c.id), pictureRaw := c.pictureRawData, locale := Some(c.preferredLanguage))
  }

  /** The link columns as `main.py` writes them: `user_info["picture_raw_data"]`
      raises `KeyError` when the photo request did not answer 200. */
  function LinkFieldsAsWritten(c: Claims, l: Link): (r: Result<Link, Fault>)
    ensures r.Failure? <==> c.pictureRawData.None?
    ensures r.Failure? ==> r.error == KeyError("picture_raw_data")
    ensures r.Success? ==> r.value == LinkFields(c, l)
  {
    if c.pictureRawData.None? then Failure(KeyError("picture_raw_data"))
    else Success(l.(microsoftId := Some(c.id), pictureRaw := Some(c.pictureRawData.value),
                    locale := Some(c.preferredLanguage)))
  }

  // ---------------------------------------------------------------------
  // get_or_create_user and find_user
  // ---------------------------------------------------------------------

  /** The result of an operation on the store: it returns, with the store
      it leaves and the info messages it queued, or it raises, leaving the
      store as the writes before the exception made it. */
  datatype Resolution =
    | Resolved(store: Store, user: User, messages: seq<string>)
    | Raised(store: Store, fault: Fault)

  /** A new user's flags after the first-superuser check and the role
      lists. */
  predicate NewUserIsSuperuser(cfg: Conf.Config, st: Store, email: string) {
    PromotesFirstSuperuser(cfg, st, email) || email in cfg.superuserList
  }

  predicate NewUserIsStaff(cfg: Conf.Config, st: Store, email: string) {
    NewUserIsSuperuser(cfg, st, email) || email in cfg.staffList
  }

  /** Adding a user who is not a superuser does not change the outcome of
      the first-superuser query. */
  lemma SuperuserForDomainAfterCreate(st: Store, email: string, d: string)
    ensures var (st1, u) := CreateUser(st, email);
      SuperuserForDomain(st1, d) <==> SuperuserForDomain(st, d)
  {
    var (st1, u) := CreateUser(st, email);
    assert forall x | x in st1.users :: x in st.users || x == u;
  }

  /** The `get_or_create(email=...)` step: the one user with this email,
      or a new one. */
  function FetchOrCreate(st: Store, email: string): (r: (Store, User, bool))
    requires |WithEmail(st.users, email)| <= 1
    ensures r.1.email == email && r.1 in r.0.users && r.0.links == st.links
    ensures r.2 <==> WithEmail(st.users, email) == []
    ensures r.2 ==> (r.0, r.1) == CreateUser(st, email)
    ensures !r.2 ==> r.0 == st && r.1 == WithEmail(st.users, email)[0]
    ensures Valid(st) ==> Valid(r.0)
  {
    var matches := WithEmail(st.users, email);
    if |matches| == 0 then
      var (st1, u) := CreateUser(st, email);
      (st1, u, true)
    else
      assert matches[0] in matches;
      (st, matches[0], false)
  }

  /** The update `get_or_create_user` makes to a new user, or to every
      user when `MICROSOFT_SSO_ALWAYS_UPDATE_USER_DATA` is on: the role
      lists, then the names, the username and an unusable password. */
  function ApplyClaims(cfg: Conf.Config, c: Claims, u: User): (r: (User, seq<string>))
    ensures r.0.id == u.id && r.0.email == u.email && r.0.isActive == u.isActive
    ensures r.0.isSuperuser <==> u.isSuperuser || u.email in cfg.superuserList
    ensures r.0.isStaff <==> u.isStaff || u.email in cfg.superuserList || u.email in cfg.staffList
    ensures r.0.firstName == c.givenName && r.0.lastName == c.surname
    ensures r.0.username == c.userPrincipalName && !r.0.usablePassword
    ensures r.1 == PermissionMessages(cfg, c.mail, u.email)
  {
    var perms := CheckForPermissions(cfg, c.mail, u);
    (perms.0.(firstName := c.givenName, lastName := c.surname,
              username := c.userPrincipalName, usablePassword := false), perms.1)
  }

  /** The user-record part of `get_or_create_user` after the lookup: the
      first-superuser check, then, for a new user or with
      `MICROSOFT_SSO_ALWAYS_UPDATE_USER_DATA` on, the role lists, the names,
      the username and an unusable password. */
  function UpdateFromClaims(cfg: Conf.Config, c: Claims, u: User, st: Store, created: bool): (r: (User, seq<string>))
    ensures r.0.id == u.id && r.0.email == u.email && r.0.isActive == u.isActive
    ensures r.0.isSuperuser <==>
      u.isSuperuser || PromotesFirstSuperuser(cfg, st, c.mail)
      || ((created || cfg.alwaysUpdateUserData) && u.email in cfg.superuserList)
    ensures r.0.isStaff <==>
      u.isStaff || PromotesFirstSuperuser(cfg, st, c.mail)
      || ((created || cfg.alwaysUpdateUserData) && (u.email in cfg.superuserList || u.email in cfg.staffList))
    ensures created || cfg.alwaysUpdateUserData ==>
      && r.0.firstName == c.givenName && r.0.lastName == c.surname
      && r.0.username == c.userPrincipalName && !r.0.usablePassword
    ensures !(created || cfg.alwaysUpdateUserData) ==>
      r.0.(isStaff := u.isStaff, isSuperuser := u.isSuperuser) == u
    ensures r.1 ==
      (if PromotesFirstSuperuser(cfg, st, c.mail) then [FirstSuperuserMessage(c.mail)] else [])
      + (if created || cfg.alwaysUpdateUserData then PermissionMessages(cfg, c.mail, u.email) else [])
  {
    var first := CheckFirstSuperUser(cfg, c.mail, u, st);
    if created || cfg.alwaysUpdateUserData then
      var applied := ApplyClaims(cfg, c, first.0);
      (applied.0, first.1 + applied.1)
    else first
  }

  /** The link part of `get_or_create_user`: fetch or create the user's
      link row, set its columns from the claims and save it. */
  function AttachLink(c: Claims, st: Store, u: User, messages: seq<string>): (r: Resolution)
    ensures r.store.users == st.users
    ensures r.Resolved? <==> FitsColumns(LinkFields(c, Link(0, None, None, None)))
    ensures r.Raised? ==> r.fault.DataTooLong?
    ensures r.Resolved? ==>
      && r.user == u && r.messages == messages
      && u.id in r.store.links
    ensures Valid(st) && HasUser(st, u.id) ==>
      && Valid(r.store)
      && (r.Resolved? ==> r.store.links[u.id] == Link(u.id, Some(c.id), c.pictureRawData, Some(c.preferredLanguage)))
    ensures r.store.links.Keys == st.links.Keys + {u.id}
    ensures forall k | k in st.links && k != u.id :: r.store.links[k] == st.links[k]
  {
    var (st1, l0) := GetOrCreateLink(st, u.id);
    var l1 := LinkFields(c, l0);
    match SaveLink(st1, l1)
    case Failure(f) => Raised(st1, f)
    case Success(st2) => Resolved(st2, u, messages)
  }

  /** The user-row half of `get_or_create_user` (lines 125-133) for an
      email no user has yet: create the user, run the first-superuser check
      and the claim update, save. */
  function SaveNewUser(cfg: Conf.Config, c: Claims, st: Store): (r: (Store, User, seq<string>))
    requires WithEmail(st.users, c.mail) == []
    ensures r.1.email == c.mail && r.1 in r.0.users && r.1.isActive
    ensures r.0.links == st.links
    ensures |r.0.users| == |st.users| + 1
    ensures Valid(st) ==>
      && Valid(r.0)
      && r.0.users == st.users + [r.1]
      && r.1 == User(st.nextId, c.userPrincipalName, c.mail, c.givenName, c.surname, true,
                     NewUserIsStaff(cfg, st, c.mail), NewUserIsSuperuser(cfg, st, c.mail), false)
      && r.2 == NewUserMessages(cfg, st, c.mail)
  {
    var (st1, u0, created) := FetchOrCreate(st, c.mail);
    var (u1, msgs) := UpdateFromClaims(cfg, c, u0, st1, created);
    var st2 := SaveUser(st1, u1);
    assert HasUser(st1, u1.id) by { assert u0 in st1.users; }
    assert Valid(st) ==> st2.users == st.users + [u1] && !PromotesFirstSuperuser(cfg, st1, c.mail) == !PromotesFirstSuperuser(cfg, st, c.mail) by {
      if Valid(st) {
        SuperuserForDomainAfterCreate(st, c.mail, EmailDomain(c.mail));
        assert st1.users[|st.users|] == u0;
        ReplaceLast(st.users, u0, u1);
      }
    }
    (st2, u1, msgs)
  }

  /** An existing user's flags after `get_or_create_user`: the
      first-superuser check always runs; the role lists apply only with
      `MICROSOFT_SSO_ALWAYS_UPDATE_USER_DATA` on; nothing is cleared. */
  predicate ExistingUserFlags(cfg: Conf.Config, st: Store, email: string, before: User, after: User) {
    && (after.isSuperuser <==>
          before.isSuperuser || PromotesFirstSuperuser(cfg, st, email)
          || (cfg.alwaysUpdateUserData && email in cfg.superuserList))
    && (after.isStaff <==>
          before.isStaff || PromotesFirstSuperuser(cfg, st, email)
          || (cfg.alwaysUpdateUserData && (email in cfg.superuserList || email in cfg.staffList)))
  }

  /** The messages queued for an existing user: the first-superuser one,
      then, with always-update on, the role-list ones. */
  function ExistingUserMessages(cfg: Conf.Config, st: Store, email: string): seq<string> {
    (if PromotesFirstSuperuser(cfg, st, email) then [FirstSuperuserMessage(email)] else [])
    + (if cfg.alwaysUpdateUserData then PermissionMessages(cfg, email, email) else [])
  }

  /** The messages queued for a new user: the first-superuser one, then
      the role-list ones. */
  function NewUserMessages(cfg: Conf.Config, st: Store, email: string): seq<string> {
    (if PromotesFirstSuperuser(cfg, st, email) then [FirstSuperuserMessage(email)] else [])
    + PermissionMessages(cfg, email, email)
  }

  /** The user-row half of `get_or_create_user` for the one user that has
      the email: the first-superuser check, the claim update only with
      `MICROSOFT_SSO_ALWAYS_UPDATE_USER_DATA` on, save. Every other row is
      kept. */
  function SaveExistingUser(cfg: Conf.Config, c: Claims, st: Store): (r: (Store, User, seq<string>))
    requires |WithEmail(st.users, c.mail)| == 1
    ensures r.1.email == c.mail && r.1 in r.0.users
    ensures r.0.links == st.links
    ensures Valid(st) ==> Valid(r.0)
    ensures
      var existing := WithEmail(st.users, c.mail)[0];
      && r.1.id == existing.id
      && |r.0.users| == |st.users|
      && (forall x | x in st.users && x.id != r.1.id :: x in r.0.users)
      && (forall x | x in r.0.users && x.id != r.1.id :: x in st.users)
      && (existing.isStaff ==> r.1.isStaff)
      && (existing.isSuperuser ==> r.1.isSuperuser)
      && existing.isActive == r.1.isActive
      && (!cfg.alwaysUpdateUserData ==>
            r.1.(isStaff := existing.isStaff, isSuperuser := existing.isSuperuser) == existing)
      && (cfg.alwaysUpdateUserData ==>
            && r.1.firstName == c.givenName && r.1.lastName == c.surname
            && r.1.username == c.userPrincipalName && !r.1.usablePassword)
    ensures ExistingUserFlags(cfg, st, c.mail, WithEmail(st.users, c.mail)[0], r.1)
    ensures r.2 == ExistingUserMessages(cfg, st, c.mail)
  {
    var (st1, u0, created) := FetchOrCreate(st, c.mail);
    var (u1, msgs) := UpdateFromClaims(cfg, c, u0, st1, created);
    assert HasUser(st1, u1.id) by { assert u0 in st1.users; }
    (SaveUser(st1, u1), u1, msgs)
  }

  /** The user-row half of `get_or_create_user`, whichever case applies.
      The links are not touched. */
  function SaveClaimedUser(cfg: Conf.Config, c: Claims, st: Store): (r: (Store, User, seq<string>))
    requires |WithEmail(st.users, c.mail)| <= 1
    ensures r.1.email == c.mail && r.1 in r.0.users
    ensures r.0.links == st.links
    ensures Valid(st) ==> Valid(r.0)
    ensures r.1.isActive <==> forall x | x in WithEmail(st.users, c.mail) :: x.isActive
    ensures WithEmail(st.users, c.mail) == [] ==> r == SaveNewUser(cfg, c, st)
    ensures |WithEmail(st.users, c.mail)| == 1 ==> r == SaveExistingUser(cfg, c, st)
  {
    var matches := WithEmail(st.users, c.mail);
    if matches == [] then SaveNewUser(cfg, c, st)
    else
      assert matches == [matches[0]];
      SaveExistingUser(cfg, c, st)
  }

  /** `get_or_create_user`. The user is looked up by exact email (more than
      one match raises `MultipleObjectsReturned`) or created; the
      first-superuser check runs against the store that now holds the user;
      a new user, or any user when `MICROSOFT_SSO_ALWAYS_UPDATE_USER_DATA`
      is on, is updated from the claims; the user is saved; then the link
      row is written. */
  function GetOrCreateUser(cfg: Conf.Config, c: Claims, st: Store): (r: Resolution)
    ensures |WithEmail(st.users, c.mail)| > 1 <==> r == Raised(st, MultipleObjectsReturned)
    ensures r.Raised? ==> r.fault == MultipleObjectsReturned || r.fault.DataTooLong?
    ensures r.Resolved? <==>
      |WithEmail(st.users, c.mail)| <= 1 && FitsColumns(LinkFields(c, Link(0, None, None, None)))
    ensures Valid(st) ==> Valid(r.store)
    ensures r.Resolved? ==>
      && r.user.email == c.mail
      && r.user in r.store.users
      && r.user.id in r.store.links
    ensures r.Resolved? && Valid(st) ==>
      r.store.links[r.user.id] == Link(r.user.id, Some(c.id), c.pictureRawData, Some(c.preferredLanguage))
    ensures r.Resolved? && WithEmail(st.users, c.mail) == [] && Valid(st) ==>
      && r.store.users == st.users + [r.user]
      && r.user == User(st.nextId, c.userPrincipalName, c.mail, c.givenName, c.surname, true,
                        NewUserIsStaff(cfg, st, c.mail), NewUserIsSuperuser(cfg, st, c.mail), false)
    ensures r.Resolved? && |WithEmail(st.users, c.mail)| == 1 ==>
      var existing := WithEmail(st.users, c.mail)[0];
      && r.user.id == existing.id
      && |r.store.users| == |st.users|
      && (forall x | x in st.users && x.id != r.user.id :: x in r.store.users)
      && (forall x | x in r.store.users && x.id != r.user.id :: x in st.users)
      && (existing.isStaff ==> r.user.isStaff)
      && (existing.isSuperuser ==> r.user.isSuperuser)
      && existing.isActive == r.user.isActive
      && (!cfg.alwaysUpdateUserData ==>
            r.user.(isStaff := existing.isStaff, isSuperuser := existing.isSuperuser) == existing)
      && (cfg.alwaysUpdateUserData ==>
            && r.user.firstName == c.givenName && r.user.lastName == c.surname
            && r.user.username == c.userPrincipalName && !r.user.usablePassword)
    ensures r.Resolved? ==>
      (r.user.isActive <==> forall x | x in WithEmail(st.users, c.mail) :: x.isActive)
    ensures r.Resolved? ==>
      && r.store.links.Keys == st.links.Keys + {r.user.id}
      && (forall k | k in st.links && k != r.user.id :: r.store.links[k] == st.links[k])
    ensures r == Raised(st, MultipleObjectsReturned) <==> SeveralWithEmail(st.users, c.mail)
    ensures r.Resolved? && |WithEmail(st.users, c.mail)| == 1 ==>
      && ExistingUserFlags(cfg, st, c.mail, WithEmail(st.users, c.mail)[0], r.user)
      && r.messages == ExistingUserMessages(cfg, st, c.mail)
    ensures r.Resolved? && WithEmail(st.users, c.mail) == [] && Valid(st) ==>
      r.messages == NewUserMessages(cfg, st, c.mail)
  {
    SeveralMatches(st.users, c.mail);
    if |WithEmail(st.users, c.mail)| > 1 then Raised(st, MultipleObjectsReturned)
    else
      var (st1, u, msgs) := SaveClaimedUser(cfg, c, st);
      AttachLink(c, st1, u, msgs)
  }

  /** The link part of `get_or_create_user` as `main.py` writes it: the
      link row is fetched or created before `user_info["picture_raw_data"]`
      is read, so a claims record without a picture raises `KeyError` with
      the (possibly new) null link row already in the store. */
  function AttachLinkAsWritten(c: Claims, st: Store, u: User, messages: seq<string>): (r: Resolution)
    ensures c.pictureRawData.Some? ==> r == AttachLink(c, st, u, messages)
    ensures c.pictureRawData.None? ==>
      && r == Raised(r.store, KeyError("picture_raw_data"))
      && r.store.users == st.users
      && r.store.links.Keys == st.links.Keys + {u.id}
      && (u.id !in st.links ==> r.store.links[u.id] == Link(u.id, None, None, None))
      && (forall k | k in st.links :: r.store.links[k] == st.links[k])
    ensures Valid(st) && HasUser(st, u.id) ==> Valid(r.store)
  {
    var (st1, l0) := GetOrCreateLink(st, u.id);
    match LinkFieldsAsWritten(c, l0)
    case Failure(f) => Raised(st1, f)
    case Success(l1) =>
      match SaveLink(st1, l1)
      case Failure(f) => Raised(st1, f)
      case Success(st2) => Resolved(st2, u, messages)
  }

  /** `get_or_create_user` exactly as `main.py` writes it: identical to
      `GetOrCreateUser` when the claims carry a picture; without one, the
      user row is saved (created when new) and the view sees `KeyError`. */
  function GetOrCreateUserAsWritten(cfg: Conf.Config, c: Claims, st: Store): (r: Resolution)
    ensures c.pictureRawData.Some? ==> r == GetOrCreateUser(cfg, c, st)
    ensures |WithEmail(st.users, c.mail)| > 1 ==> r == Raised(st, MultipleObjectsReturned)
    ensures c.pictureRawData.None? && |WithEmail(st.users, c.mail)| <= 1 ==>
      && r == Raised(r.store, KeyError("picture_raw_data"))
      && (exists u | u in r.store.users :: u.email == c.mail && u.id in r.store.links)
    ensures c.pictureRawData.None? && WithEmail(st.users, c.mail) == [] ==>
      |r.store.users| == |st.users| + 1
    ensures Valid(st) ==> Valid(r.store)
  {
    if |WithEmail(st.users, c.mail)| > 1 then Raised(st, MultipleObjectsReturned)
    else
      var (st1, u, msgs) := SaveClaimedUser(cfg, c, st);
      AttachLinkAsWritten(c, st1, u, msgs)
  }

  /** Replacing the row just appended rewrites only that row. */
  lemma ReplaceLast(users: seq<User>, u: User, v: User)
    requires forall x | x in users :: x.id != u.id
    requires v.id == u.id
    ensures Replace(users + [u], v) == users + [v]
  {
    var r := Replace(users + [u], v);
    forall i | 0 <= i < |users| ensures r[i] == users[i] {
      assert (users + [u])[i] == users[i];
      assert users[i] in users;
    }
  }

  /** `find_user`: the one user whose email equals the mail claim exactly,
      nothing when there is none (more than one raises). The store is only
      read. */
  function FindUser(c: Claims, st: Store): (r: Result<Option<User>, Fault>)
    ensures r == Failure(MultipleObjectsReturned) <==> |WithEmail(st.users, c.mail)| > 1
    ensures r.Failure? ==> r.error == MultipleObjectsReturned
    ensures r.Failure? <==> SeveralWithEmail(st.users, c.mail)
    ensures r.Success? && r.value.Some? ==>
      forall u | u in st.users && u.email == c.mail :: u == r.value.value
    ensures r == Success(None) <==> forall u | u in st.users :: u.email != c.mail
    ensures r.Success? && r.value.Some? ==> r.value.value in st.users && r.value.value.email == c.mail
  {
    var matches := WithEmail(st.users, c.mail);
    SeveralMatches(st.users, c.mail);
    if |matches| > 1 then
      assert matches[0] in matches;
      Failure(MultipleObjectsReturned)
    else if |matches| == 1 then
      assert matches[0] in matches;
      Success(Some(matches[0]))
    else Success(None)
  }
}

=== FILE: models.dfy ===
/** `django_microsoft_sso/models.py` and the part of the host's user table
    the package touches. The database is a `Store`: the user rows, in
    primary-key order, and the `microsoft_sso_user` link table keyed by the
    user it belongs to (a one-to-one relation, so a map). */
module Models {
  import opened Wrappers
  import opened PyStr
  import Base64

  /** A row of the host's user table, restricted to the columns the package
      reads or writes. `usablePassword` is false once `set_unusable_password`
      has run. */
  datatype User = User(
    id: nat,
    username: string,
    email: string,
    firstName: string,
    lastName: string,
    isActive: bool,
    isStaff: bool,
    isSuperuser: bool,
    usablePassword: bool)

  /** A `MicrosoftSSOUser` row: every column except the user is nullable. */
  datatype Link = Link(
    userId: nat,
    microsoftId: Option<string>,
    pictureRaw: Option<seq<Base64.byte>>,
    locale: Option<string>)

  /** The ways a database call of the package raises. */
  datatype Fault =
    | MultipleObjectsReturned
    | DataTooLong(column: string)
    | KeyError(key: string)

  datatype Store = Store(users: seq<User>, links: map<nat, Link>, nextId: nat)

  const MicrosoftIdMaxLength := 255
  const LocaleMaxLength := 5

  /** The `max_length` of the two character columns. */
  predicate FitsColumns(l: Link) {
    && (l.microsoftId.Some? ==> |l.microsoftId.value| <= MicrosoftIdMaxLength)
    && (l.locale.Some? ==> |l.locale.value| <= LocaleMaxLength)
  }

  predicate HasUser(st: Store, id: nat) {
    exists u | u in st.users :: u.id == id
  }

  /** No two rows share a primary key. */
  predicate DistinctIds(users: seq<User>) {
    forall i, j | 0 <= i < j < |users| :: users[i].id != users[j].id
  }

  /** The database constraints: distinct primary keys below the next key to
      be handed out, at most one link per user (the map), each link naming
      an existing user, and the column widths respected. */
  predicate Valid(st: Store) {
    && DistinctIds(st.users)
    && (forall u | u in st.users :: u.id < st.nextId)
    && (forall id | id in st.links ::
          st.links[id].userId == id && HasUser(st, id) && FitsColumns(st.links[id]))
  }

  /** The users whose email equals `email` exactly, in key order: what
      `filter(email=...)` selects. */
  function WithEmail(users: seq<User>, email: string): (r: seq<User>)
    ensures forall u | u in r :: u in users && u.email == email
    ensures forall u | u in users && u.email == email :: u in r
    ensures |r| <= |users|
    ensures multiset(r) <= multiset(users)
    ensures DistinctIds(users) ==> DistinctIds(r)
  {
    if |users| == 0 then []
    else
      var rest := WithEmail(users[1..], email);
      assert users == [users[0]] + users[1..];
      assert forall u | u in users[1..] :: u in users;
      if users[0].email == email then
        KeepHead(users, rest);
        [users[0]] + rest
      else
        assert DistinctIds(users) ==> DistinctIds(users[1..]);
        rest
  }

  /** Keeping the first row in front of rows selected from the others
      keeps the ids distinct and the multiset within the table's. */
  lemma KeepHead(users: seq<User>, rest: seq<User>)
    requires |users| > 0
    requires multiset(rest) <= multiset(users[1..])
    requires DistinctIds(users[1..]) ==> DistinctIds(rest)
    ensures multiset([users[0]] + rest) <= multiset(users)
    ensures DistinctIds(users) ==> DistinctIds([users[0]] + rest)
  {
    assert users == [users[0]] + users[1..];
    var r := [users[0]] + rest;
    if DistinctIds(users) {
      assert DistinctIds(users[1..]);
      forall x | x in rest ensures x.id != users[0].id {
        assert x in multiset(users[1..]);
        var j :| 0 <= j < |users[1..]| && users[1..][j] == x;
        assert users[j + 1] == x;
      }
      forall i, j | 0 <= i < j < |r| ensures r[i].id != r[j].id {
        assert r[j] == rest[j - 1] && rest[j - 1] in rest;
        if i > 0 { assert r[i] == rest[i - 1]; }
      }
    }
  }

  /** Two rows hold this email: what makes `get(email=...)` raise
      `MultipleObjectsReturned`. */
  predicate SeveralWithEmail(users: seq<User>, email: string) {
    exists i, j | 0 <= i < j < |users| :: users[i].email == email && users[j].email == email
  }

  /** `filter(email=...)` returns more than one row exactly when two rows
      hold the email. */
  lemma {:induction false} SeveralMatches(users: seq<User>, email: string)
    ensures |WithEmail(users, email)| > 1 <==> SeveralWithEmail(users, email)
    decreases |users|
  {
    if |users| > 0 {
      var tail := users[1..];
      if users[0].email == email {
        SeveralWithMatchingHead(users, email);
      } else {
        SeveralMatches(tail, email);
        SeveralWithOtherHead(users, email);
      }
    }
  }

  /** When the first row holds the email, a second match anywhere makes
      two. */
  lemma SeveralWithMatchingHead(users: seq<User>, email: string)
    requires |users| > 0 && users[0].email == email
    ensures |WithEmail(users, email)| > 1 <==> SeveralWithEmail(users, email)
  {
    var tail := users[1..];
    var rest := WithEmail(tail, email);
    assert WithEmail(users, email) == [users[0]] + rest;
    if rest != [] {
      assert rest[0] in rest;
      var j :| 0 <= j < |tail| && tail[j] == rest[0];
      assert users[j + 1] == tail[j];
      assert SeveralWithEmail(users, email);
    }
    if SeveralWithEmail(users, email) {
      var i, j :| 0 <= i < j < |users| && users[i].email == email && users[j].email == email;
      assert tail[j - 1] == users[j] && tail[j - 1] in tail;
      assert tail[j - 1] in rest;
    }
  }

  /** When the first row does not hold the email, the matches are those of
      the other rows. */
  lemma SeveralWithOtherHead(users: seq<User>, email: string)
    requires |users| > 0 && users[0].email != email
    ensures WithEmail(users, email) == WithEmail(users[1..], email)
    ensures SeveralWithEmail(users, email) <==> SeveralWithEmail(users[1..], email)
  {
    var tail := users[1..];
    if SeveralWithEmail(users, email) {
      var i, j :| 0 <= i < j < |users| && users[i].email == email && users[j].email == email;
      assert tail[i - 1] == users[i] && tail[j - 1] == users[j];
    }
    if SeveralWithEmail(tail, email) {
      var i, j :| 0 <= i < j < |tail| && tail[i].email == email && tail[j].email == email;
      assert users[i + 1] == tail[i] && users[j + 1] == tail[j];
    }
  }


  /** `objects.create(email=email)`: a fresh key, the email, every other
      column at its default (an active user that is neither staff nor
      superuser). */
  function CreateUser(st: Store, email: string): (r: (Store, User))
    ensures r.1 in r.0.users && r.1.email == email && r.1.id == st.nextId
    ensures r.1.isActive && !r.1.isStaff && !r.1.isSuperuser
    ensures r.0.users == st.users + [r.1] && r.0.links == st.links
    ensures !HasUser(st, r.1.id) <== Valid(st)
    ensures Valid(st) ==> Valid(r.0)
  {
    var u := User(st.nextId, "", email, "", "", true, false, false, true);
    var st' := Store(st.users + [u], st.links, st.nextId + 1);
    assert forall x | x in st.users :: x in st'.users;
    (st', u)
  }

  /** The user rows with the row of `u.id` replaced by `u`. */
  function Replace(users: seq<User>, u: User): (r: seq<User>)
    ensures |r| == |users|
    ensures forall i | 0 <= i < |users| :: r[i].id == users[i].id
    ensures forall i | 0 <= i < |users| :: r[i] == (if users[i].id == u.id then u else users[i])
  {
    seq(|users|, i requires 0 <= i < |users| => if users[i].id == u.id then u else users[i])
  }

  /** `user.save()`: an UPDATE of the row with the same key, or an INSERT
      when there is none. */
  function SaveUser(st: Store, u: User): (r: Store)
    ensures u in r.users
    ensures r.links == st.links
    ensures forall x | x in st.users && x.id != u.id :: x in r.users
    ensures forall x | x in r.users && x.id != u.id :: x in st.users
    ensures HasUser(st, u.id) ==> |r.users| == |st.users|
    ensures Valid(st) ==> Valid(r)
  {
    if HasUser(st, u.id) then
      var users := Replace(st.users, u);
      var r := Store(users, st.links, st.nextId);
      var i :| 0 <= i < |st.users| && st.users[i].id == u.id;
      assert users[i] == u;
      assert forall x | x in st.users && x.id != u.id :: x in r.users by {
        forall x | x in st.users && x.id != u.id ensures x in r.users {
          var j :| 0 <= j < |st.users| && st.users[j] == x;
          assert users[j] == x;
        }
      }
      assert forall id | id in st.links && HasUser(st, id) :: HasUser(r, id) by {
        forall id | id in st.links && HasUser(st, id) ensures HasUser(r, id) {
          var x :| x in st.users && x.id == id;
          var j :| 0 <= j < |st.users| && st.users[j] == x;
          assert users[j].id == id;
        }
      }
      r
    else
      var r := Store(st.users + [u], st.links, if u.id < st.nextId then st.nextId else u.id + 1);
      assert forall x | x in st.users :: x in r.users;
      r
  }

  /** `MicrosoftSSOUser.objects.get_or_create(user=user)`: the user's link,
      or a new one with every column null. The row returned is always the
      one whose user is `userId`. */
  function GetOrCreateLink(st: Store, userId: nat): (r: (Store, Link))
    ensures r.1.userId == userId
    ensures r.0.links.Keys == st.links.Keys + {userId}
    ensures userId in st.links ==> r.0 == st && r.1 == st.links[userId].(userId := userId)
    ensures userId in st.links && Valid(st) ==> r.1 == st.links[userId]
    ensures userId !in st.links ==> r.1 == Link(userId, None, None, None) && r.0.links == st.links[userId := r.1]
    ensures r.0.users == st.users
    ensures Valid(st) && HasUser(st, userId) ==> Valid(r.0) && r.0.links[userId] == r.1
  {
    if userId in st.links then (st, st.links[userId].(userId := userId))
    else
      var l := Link(userId, None, None, None);
      (st.(links := st.links[userId := l]), l)
  }

  /** `microsoft_user.save()`: rejected when a value is wider than its
      column. */
  function SaveLink(st: Store, l: Link): (r: Result<Store, Fault>)
    ensures r.Success? <==> FitsColumns(l)
    ensures r.Failure? ==> r.error.DataTooLong?
    ensures r.Success? ==> r.value.users == st.users && r.value.links == st.links[l.userId := l]
    ensures r.Success? && Valid(st) && HasUser(st, l.userId) ==> Valid(r.value)
  {
    if l.microsoftId.Some? && |l.microsoftId.value| > MicrosoftIdMaxLength then
      Failure(DataTooLong("microsoft_id"))
    else if l.locale.Some? && |l.locale.value| > LocaleMaxLength then
      Failure(DataTooLong("locale"))
    else
      Success(st.(links := st.links[l.userId := l]))
  }

  /** Deleting a user: `on_delete=CASCADE` removes its link as well, and
      nothing else changes. */
  function DeleteUser(st: Store, id: nat): (r: Store)
    ensures !HasUser(r, id) && id !in r.links
    ensures forall u | u in st.users && u.id != id :: u in r.users
    ensures forall u | u in r.users :: u in st.users
    ensures forall k | k in st.links && k != id :: k in r.links && r.links[k] == st.links[k]
    ensures Valid(st) ==> Valid(r)
  {
    var users := Without(st.users, id);
    var r := Store(users, st.links - {id}, st.nextId);
    assert Valid(st) ==> Valid(r) by {
      if Valid(st) {
        forall k | k in r.links ensures HasUser(r, k) {
          var u :| u in st.users && u.id == k;
          assert u in users;
        }
        WithoutKeepsDistinct(st.users, id);
      }
    }
    r
  }

  /** The rows whose key is not `id`, in order. */
  function Without(users: seq<User>, id: nat): (r: seq<User>)
    ensures forall u | u in r :: u in users && u.id != id
    ensures forall u | u in users && u.id != id :: u in r
    ensures |r| <= |users|
  {
    if |users| == 0 then []
    else
      var rest := Without(users[1..], id);
      assert forall u | u in users[1..] :: u in users;
      if users[0].id == id then rest else [users[0]] + rest
  }

  /** Dropping rows keeps the keys distinct. */
  lemma {:induction false} WithoutKeepsDistinct(users: seq<User>, id: nat)
    requires DistinctIds(users)
    ensures DistinctIds(Without(users, id))
    decreases |users|
  {
    if |users| > 0 {
      var tail := users[1..];
      assert DistinctIds(tail) by {
        forall i, j | 0 <= i < j < |tail| ensures tail[i].id != tail[j].id {
          assert tail[i] == users[i + 1] && tail[j] == users[j + 1];
        }
      }
      WithoutKeepsDistinct(tail, id);
      if users[0].id != id {
        var rest := Without(tail, id);
        var r := [users[0]] + rest;
        forall j | 0 < j < |r| ensures r[0].id != r[j].id {
          assert r[j] in tail;
          var k :| 0 <= k < |tail| && tail[k] == r[j];
          assert users[k + 1] == r[j];
        }
        forall i, j | 0 <= i < j < |r| ensures r[i].id != r[j].id {
          if i > 0 {
            assert r[i] == rest[i - 1] && r[j] == rest[j - 1];
          }
        }
      }
    }
  }

  // ---------------------------------------------------------------------
  // `picture` and `__str__`
  // ---------------------------------------------------------------------

  const ImgPrefix := "<img src = \"data: image/png; base64, "
  const ImgSuffix := "\" width=\"75\" height=\"75\">"

  /** `picture`: no tag for a null or empty `picture_raw`, otherwise an
      img tag carrying the base 64 of the bytes as a data URL. */
  function Picture(raw: Option<seq<Base64.byte>>): (r: Option<string>)
    ensures r.None? <==> raw.None? || raw.value == []
    ensures r.Some? ==>
      var n := |r.value| - |ImgSuffix|;
      && |ImgPrefix| <= n
      && r.value[..|ImgPrefix|] == ImgPrefix
      && r.value[n..] == ImgSuffix
      && |r.value[|ImgPrefix|..n]| == 4 * ((|raw.value| + 2) / 3)
      && Base64.Decode(r.value[|ImgPrefix|..n]) == Some(raw.value)
    ensures r.Some? ==> r.value == ImgPrefix + Base64.Encode(raw.value) + ImgSuffix
  {
    if raw.Some? && raw.value != [] then
      var payload := Base64.Encode(raw.value);
      Base64.DecodeEncode(raw.value);
      var s := ImgPrefix + payload + ImgSuffix;
      assert s[..|ImgPrefix|] == ImgPrefix;
      assert s[|ImgPrefix|..|s| - |ImgSuffix|] == payload;
      assert s[|s| - |ImgSuffix|..] == ImgSuffix;
      Some(s)
    else None
  }

  /** Python's `str()` of a nullable text column. */
  function ShowOpt(o: Option<string>): string {
    if o.Some? then o.value else "None"
  }

  /** `__str__`: the owner's email, then the Microsoft id in parentheses
      ("None" when it is null). */
  function Str(owner: User, l: Link): (r: string)
    requires owner.id == l.userId
    ensures |r| == |owner.email| + |ShowOpt(l.microsoftId)| + 3
    ensures r[..|owner.email|] == owner.email
    ensures r[|owner.email|..|owner.email| + 2] == " ("
    ensures r[|owner.email| + 2..|r| - 1] == ShowOpt(l.microsoftId)
    ensures r[|r| - 1] == ')'
  {
    var s := owner.email + " (" + ShowOpt(l.microsoftId) + ")";
    assert s[|owner.email| + 2..|s| - 1] == ShowOpt(l.microsoftId);
    s
  }
}

=== FILE: pystr.dfy ===
/** The few pieces of Python's `str` semantics the modelled code relies on:
    `startswith`, the `in` operator, `find`/`rfind`, `split`, slicing and
    truthiness. Each is defined the way CPython defines it, so that the
    modules above can be read side by side with the Python source. */
module PyStr {
  import opened Wrappers

  /** `s.startswith(p)` */
  predicate StartsWith(s: string, p: string) {
    |p| <= |s| && s[..|p|] == p
  }

  /** `sub` occurs in `s` starting at index `i`. */
  predicate OccursAt(s: string, sub: string, i: int) {
    0 <= i <= |s| - |sub| && s[i..i + |sub|] == sub
  }

  /** Python's `sub in s` on strings: a substring test, and the empty string
      is in every string. */
  predicate Contains(s: string, sub: string) {
    exists i | 0 <= i <= |s| - |sub| :: OccursAt(s, sub, i)
  }

  /** Python truthiness of a string, and of a value that may be `None`. */
  predicate Truthy(s: string) {
    s != ""
  }

  predicate TruthyOpt(o: Option<string>) {
    o.Some? && Truthy(o.value)
  }

  /** `s.find(c, start)`: the first index at or after `start` holding `c`,
      or -1. */
  function Find(s: string, c: char, start: nat): (r: int)
    ensures r == -1 || (start <= r < |s| && s[r] == c)
    ensures forall k | start <= k < |s| && (r == -1 || k < r) :: s[k] != c
    decreases |s| - start
  {
    if start >= |s| then -1
    else if s[start] == c then start
    else Find(s, c, start + 1)
  }

  /** `s.rfind(c)`: the last index holding `c`, or -1. */
  function RFind(s: string, c: char): (r: int)
    ensures -1 <= r < |s|
    ensures r >= 0 ==> s[r] == c
    ensures forall k | r < k < |s| :: s[k] != c
    decreases |s|
  {
    if |s| == 0 then -1
    else if s[|s| - 1] == c then |s| - 1
    else RFind(s[..|s| - 1], c)
  }

  /** `s.split(sep)` for a one-character separator: the maximal pieces of
      `s` that do not contain `sep`, empty pieces included. */
  function Split(s: string, sep: char): (parts: seq<string>)
    ensures |parts| >= 1
    ensures forall i | 0 <= i < |parts| :: sep !in parts[i]
    decreases |s|
  {
    var i := Find(s, sep, 0);
    if i == -1 then [s] else [s[..i]] + Split(s[i + 1..], sep)
  }

  /** `sep.join(parts)` */
  function Join(parts: seq<string>, sep: char): string
    decreases |parts|
  {
    if |parts| == 0 then ""
    else if |parts| == 1 then parts[0]
    else parts[0] + [sep] + Join(parts[1..], sep)
  }

  /** Joining a first piece onto at least one more puts `sep` between. */
  lemma JoinCons(a: string, rest: seq<string>, sep: char)
    requires |rest| >= 1
    ensures Join([a] + rest, sep) == a + [sep] + Join(rest, sep)
  {
    assert ([a] + rest)[0] == a;
    assert ([a] + rest)[1..] == rest;
  }

  /** Splitting loses nothing: joining the pieces gives back the string. */
  lemma {:induction false} SplitJoin(s: string, sep: char)
    ensures Join(Split(s, sep), sep) == s
    decreases |s|
  {
    var i := Find(s, sep, 0);
    if i == -1 {
      assert Split(s, sep) == [s];
    } else {
      var tail := s[i + 1..];
      var rest := Split(tail, sep);
      assert Split(s, sep) == [s[..i]] + rest;
      SplitJoin(tail, sep);
      JoinCons(s[..i], rest, sep);
      assert s == s[..i] + [sep] + tail;
    }
  }

  /** `s.split(sep)[-1]` */
  function LastPart(s: string, sep: char): string {
    var parts := Split(s, sep);
    parts[|parts| - 1]
  }

  /** `s.split(sep)[-1]` is exactly the text after the last `sep`, and the
      whole of `s` when `sep` does not occur. */
  lemma {:induction false} LastPartIsAfterLast(s: string, sep: char)
    ensures LastPart(s, sep) == s[RFind(s, sep) + 1..]
    ensures sep !in LastPart(s, sep)
    ensures sep !in s ==> LastPart(s, sep) == s
    decreases |s|
  {
    var i := Find(s, sep, 0);
    if i == -1 {
      assert sep !in s;
      assert RFind(s, sep) == -1;
    } else {
      var t := s[i + 1..];
      LastPartIsAfterLast(t, sep);
      assert LastPart(s, sep) == LastPart(t, sep);
      var j := i + 1 + RFind(t, sep);
      assert s[j] == sep;
      assert forall k | j < k < |s| :: s[k] == t[k - i - 1];
      assert RFind(s, sep) == j;
      assert s[j + 1..] == t[RFind(t, sep) + 1..];
    }
  }

  /** The text after the last `sep` of `prefix + [sep] + tail` is `tail`
      whenever `tail` holds no `sep`. */
  lemma LastPartOfJoined(prefix: string, sep: char, tail: string)
    requires sep !in tail
    ensures LastPart(prefix + [sep] + tail, sep) == tail
  {
    var s := prefix + [sep] + tail;
    LastPartIsAfterLast(s, sep);
    assert s[|prefix|] == sep;
    assert forall k | |prefix| < k < |s| :: s[k] == tail[k - |prefix| - 1];
    assert RFind(s, sep) == |prefix|;
    assert s[|prefix| + 1..] == tail;
  }

  /** `s[:i]` and `s[i:]` share the normalisation of a slice bound against a
      length `n`: negative bounds count from the end, and every bound is
      clamped into `0..n`. */
  function SliceIndex(i: int, n: nat): (r: nat)
    ensures r <= n
    ensures 0 <= i <= n ==> r == i
    ensures i < 0 && -i <= n ==> r == n + i
    ensures i < 0 && -i > n ==> r == 0
    ensures i > n ==> r == n
  {
    if i < 0 then (if i + n < 0 then 0 else i + n)
    else if i > n then n
    else i
  }

  /** `s[start:stop]` with step 1; `None` is an omitted bound. */
  function Slice(s: string, start: Option<int>, stop: Option<int>): string {
    var a := SliceIndex(start.GetOr(0), |s|);
    var b := SliceIndex(stop.GetOr(|s|), |s|);
    if a <= b then s[a..b] else ""
  }

  /** `s[:n]` keeps the first `min(n, |s|)` characters. */
  lemma SliceHead(s: string, n: nat)
    ensures Slice(s, None, Some(n)) == s[..if n <= |s| then n else |s|]
  {
  }

  /** `s[-n:]` keeps the last `min(n, |s|)` characters (for `n > 0`: `s[-0:]`
      is the whole string). */
  lemma SliceTail(s: string, n: nat)
    requires n > 0
    ensures Slice(s, Some(-(n as int)), None) == s[|s| - (if n <= |s| then n else |s|)..]
  {
  }

  /** ASCII case folding, which is what `str.lower()` does on the ASCII-only
      strings it is applied to here (URL schemes). */
  function LowerChar(c: char): char {
    if 'A' <= c <= 'Z' then (c as int + 32) as char else c
  }

  function Lower(s: string): (r: string)
    ensures |r| == |s|
    ensures forall k | 0 <= k < |s| :: r[k] == LowerChar(s[k])
  {
    seq(|s|, k requires 0 <= k < |s| => LowerChar(s[k]))
  }
}

=== FILE: urlparse.dfy ===
/** The part of CPython 3.12's `urllib.parse.urlparse` that the login view
    relies on: splitting a URL into scheme, network location, path, params,
    query and fragment (the views keep only the path).

    Steps, in CPython's order: strip leading C0 controls and spaces, delete
    tab/CR/LF everywhere, take a scheme when the text before the first ':'
    is a valid scheme, take a network location after a leading "//" up to
    the first '/', '?' or '#', cut the fragment at the first '#', the query
    at the first '?', and, for schemes that use params, the params at the
    first ';' after the last '/'. An unbalanced '[' or ']' in the network
    location raises `ValueError`. */
module UrlParse {
  import opened Wrappers
  import opened PyStr

  datatype Parsed = Parsed(scheme: string, netloc: string, path: string,
                           params: string, query: string, fragment: string)

  const InvalidIPv6 := "Invalid IPv6 URL"

  /** WHATWG "C0 control or space": U+0000 up to and including U+0020. */
  predicate IsC0OrSpace(c: char) {
    c <= ' '
  }

  /** Leading C0 controls and spaces are dropped. */
  function LStripC0(s: string): (r: string)
    ensures r == "" || !IsC0OrSpace(r[0])
    ensures s == "" || !IsC0OrSpace(s[0]) ==> r == s
    decreases |s|
  {
    if |s| > 0 && IsC0OrSpace(s[0]) then LStripC0(s[1..]) else s
  }

  /** Tab, carriage return and line feed are deleted wherever they occur. */
  predicate IsUnsafe(c: char) {
    c == '\t' || c == '\r' || c == '\n'
  }

  predicate NoUnsafe(s: string) {
    '\t' !in s && '\r' !in s && '\n' !in s
  }

  function RemoveUnsafe(s: string): (r: string)
    ensures NoUnsafe(r)
    ensures |r| <= |s|
    ensures NoUnsafe(s) ==> r == s
    decreases |s|
  {
    if |s| == 0 then ""
    else (if IsUnsafe(s[0]) then "" else [s[0]]) + RemoveUnsafe(s[1..])
  }

  predicate IsAsciiAlpha(c: char) {
    'a' <= c <= 'z' || 'A' <= c <= 'Z'
  }

  /** Letters, digits, '+', '-' and '.'. */
  predicate IsSchemeChar(c: char) {
    IsAsciiAlpha(c) || '0' <= c <= '9' || c == '+' || c == '-' || c == '.'
  }

  /** The text before the first ':' is taken as the scheme when it is
      non-empty, starts with an ASCII letter and holds only scheme
      characters. */
  predicate HasScheme(url: string) {
    var i := Find(url, ':', 0);
    i > 0 && IsAsciiAlpha(url[0]) && forall k | 0 <= k < i :: IsSchemeChar(url[k])
  }

  /** (scheme, rest): the scheme is lower-cased; the ':' is consumed. */
  function SplitScheme(url: string): (r: (string, string))
    ensures !HasScheme(url) ==> r == ("", url)
    ensures HasScheme(url) ==>
      var i := Find(url, ':', 0);
      r.0 == Lower(url[..i]) && url == url[..i] + ":" + r.1 && ':' !in url[..i]
    ensures forall x | x in r.1 :: x in url
  {
    if HasScheme(url) then
      var i := Find(url, ':', 0);
      assert url == url[..i] + ":" + url[i + 1..];
      (Lower(url[..i]), url[i + 1..])
    else ("", url)
  }

  /** The nearer of a current end `d` and a found position `w` (-1 = absent). */
  function Nearer(d: nat, w: int): nat {
    if 0 <= w < d then w else d
  }

  /** Where the network location after a leading "//" ends: at the first
      '/', '?' or '#' from index 2, else at the end of the string. */
  function NetlocEnd(url: string): (d: nat)
    requires |url| >= 2
    ensures 2 <= d <= |url|
    ensures forall k | 2 <= k < d :: url[k] != '/' && url[k] != '?' && url[k] != '#'
    ensures d < |url| ==> url[d] == '/' || url[d] == '?' || url[d] == '#'
  {
    Nearer(Nearer(Nearer(|url|, Find(url, '/', 2)), Find(url, '?', 2)), Find(url, '#', 2))
  }

  /** (netloc, rest) for a URL starting with "//". */
  function SplitNetloc(url: string): (r: (string, string))
    requires StartsWith(url, "//")
    ensures url == "//" + r.0 + r.1
    ensures '/' !in r.0 && '?' !in r.0 && '#' !in r.0
    ensures r.1 == "" || r.1[0] == '/' || r.1[0] == '?' || r.1[0] == '#'
    ensures forall x | x in r.0 + r.1 :: x in url
  {
    var d := NetlocEnd(url);
    assert url == url[..2] + url[2..d] + url[d..];
    (url[2..d], url[d..])
  }

  /** A network location with a '[' and no ']', or the other way round. */
  predicate UnbalancedBrackets(netloc: string) {
    ('[' in netloc && ']' !in netloc) || (']' in netloc && '[' !in netloc)
  }

  /** `s.split(c, 1)` when `c` occurs in `s`. */
  function SplitOnce(s: string, c: char): (r: (string, string))
    requires c in s
    ensures s == r.0 + [c] + r.1
    ensures c !in r.0
  {
    var i := Find(s, c, 0);
    assert s == s[..i] + [c] + s[i + 1..];
    (s[..i], s[i + 1..])
  }

  /** Schemes for which `urlparse` separates `;params` from the path. */
  const UsesParams: seq<string> :=
    ["", "ftp", "hdl", "prospero", "http", "imap", "https", "shttp", "rtsp",
     "rtsps", "rtspu", "sip", "sips", "mms", "sftp", "tel"]

  /** `(s[:i], s[i+1:])` around the first `c`, or `(s, "")` without one. */
  function CutAt(s: string, c: char): (r: (string, string))
    ensures c !in r.0
    ensures forall x | x in r.0 :: x in s
    ensures c !in s ==> r == (s, "")
    ensures c in s ==> s == r.0 + [c] + r.1
  {
    if c in s then SplitOnce(s, c) else (s, "")
  }

  /** `_splitparams`: cut at the first ';' after the last '/' (or at the
      first ';' when there is no '/'). */
  function SplitParams(url: string): (r: (string, string))
    requires ';' in url
    ensures '/' !in r.1
    ensures forall x | x in r.0 :: x in url
    ensures r.1 != "" ==> url == r.0 + ";" + r.1
  {
    if '/' in url then
      var i := Find(url, ';', RFind(url, '/'));
      if i < 0 then (url, "")
      else
        assert url == url[..i] + ";" + url[i + 1..];
        assert forall k | i + 1 <= k < |url| :: url[k] != '/';
        (url[..i], url[i + 1..])
    else
      var i := Find(url, ';', 0);
      assert url == url[..i] + ";" + url[i + 1..];
      (url[..i], url[i + 1..])
  }

  /** The URL after the leading strip and the tab/CR/LF deletion. */
  function Prepare(raw: string): (u: string)
    ensures NoUnsafe(u)
  {
    RemoveUnsafe(LStripC0(raw))
  }

  /** `urlsplit`: the five components, `params` left empty. */
  function Urlsplit(raw: string): (r: Result<Parsed, string>)
    ensures r.Failure? ==> r.error == InvalidIPv6
    ensures r.Success? ==>
      && r.value.params == ""
      && '#' !in r.value.path && '?' !in r.value.path
      && '/' !in r.value.netloc && !UnbalancedBrackets(r.value.netloc)
      && NoUnsafe(r.value.path)
  {
    var url := Prepare(raw);
    var sr := SplitScheme(url);
    var nr := if StartsWith(sr.1, "//") then SplitNetloc(sr.1) else ("", sr.1);
    if UnbalancedBrackets(nr.0) then Failure(InvalidIPv6)
    else
      var fr := CutAt(nr.1, '#');
      var qr := CutAt(fr.0, '?');
      assert forall x | x in nr.1 :: x in url by {
        if StartsWith(sr.1, "//") {
          assert forall x | x in nr.1 :: x in nr.0 + nr.1;
        }
      }
      Success(Parsed(sr.0, nr.0, qr.0, "", qr.1, fr.1))
  }

  /** `urlparse`: `urlsplit`, then the params split for the schemes that use
      params. */
  function Urlparse(raw: string): (r: Result<Parsed, string>)
    ensures r.Failure? <==> Urlsplit(raw).Failure?
    ensures r.Success? ==>
      && '#' !in r.value.path && '?' !in r.value.path
      && '/' !in r.value.netloc
      && r.value.scheme == Urlsplit(raw).value.scheme
      && r.value.netloc == Urlsplit(raw).value.netloc
      && NoUnsafe(r.value.path)
  {
    match Urlsplit(raw)
    case Failure(e) => Failure(e)
    case Success(p) =>
      if p.scheme in UsesParams && ';' in p.path then
        var pr := SplitParams(p.path);
        Success(p.(path := pr.0, params := pr.1))
      else Success(p)
  }

  // ---------------------------------------------------------------------
  // Characterisations of the path `urlparse` extracts
  // ---------------------------------------------------------------------

  /** `Find` returns the first occurrence at or after `start`. */
  lemma FindFirst(s: string, c: char, start: nat, j: nat)
    requires start <= j < |s| && s[j] == c
    requires forall k | start <= k < j :: s[k] != c
    ensures Find(s, c, start) == j
  {
  }

  lemma FindAbsent(s: string, c: char, start: nat)
    requires forall k | start <= k < |s| :: s[k] != c
    ensures Find(s, c, start) == -1
  {
  }

  /** A path suffix that `urlparse` keeps untouched: empty or starting with
      '/', and free of the characters that cut it short. */
  predicate PlainTail(p: string) {
    && (p == "" || p[0] == '/')
    && NoUnsafe(p)
    && '?' !in p && '#' !in p && ';' !in p
  }

  /** Text that `urlsplit` takes whole as the network location: nothing
      that ends it and nothing the preparation step removes. */
  predicate HostText(h: string) {
    NoUnsafe(h) && '/' !in h && '?' !in h && '#' !in h
  }

  /** A host that fits in the network location as it is. */
  predicate PlainHost(h: string) {
    HostText(h) && '[' !in h && ']' !in h
  }

  /** A URL that starts with a visible character and holds no tab/CR/LF is
      left alone by the preparation step. */
  lemma PrepareKeeps(url: string)
    requires NoUnsafe(url) && (url == "" || !IsC0OrSpace(url[0]))
    ensures Prepare(url) == url
  {
    assert LStripC0(url) == url;
  }

  /** "http:" and "https:" are taken as schemes; a URL starting with '/'
      has none. */
  lemma SchemeOfPrefix(prefix: string, rest: string)
    requires prefix == "" || prefix == "http:" || prefix == "https:"
    requires prefix == "" ==> rest != "" && rest[0] == '/'
    ensures SplitScheme(prefix + rest) == (if prefix == "" then "" else prefix[..|prefix| - 1], rest)
  {
    var url := prefix + rest;
    if prefix == "" {
      assert url == rest;
      assert !HasScheme(url) by { assert !IsAsciiAlpha(url[0]); }
    } else {
      var i := |prefix| - 1;
      assert url[i] == ':';
      FindFirst(url, ':', 0, i);
      assert url[..i] == prefix[..i];
      assert HasScheme(url);
      assert Lower(url[..i]) == url[..i];
      assert url[i + 1..] == rest;
    }
  }

  /** The network location of "//host" + p is `host` when the host holds
      no '/', '?' or '#' and p starts with '/' (or is empty). */
  lemma NetlocOfParts(host: string, p: string)
    requires HostText(host) && PlainTail(p)
    ensures StartsWith("//" + host + p, "//")
    ensures SplitNetloc("//" + host + p) == (host, p)
  {
    var rest := "//" + host + p;
    var d := 2 + |host|;
    assert forall k | 2 <= k < d :: rest[k] == host[k - 2];
    assert forall k | d <= k < |rest| :: rest[k] == p[k - d];
    if p == "" {
      FindAbsent(rest, '/', 2);
    } else {
      FindFirst(rest, '/', 2, d);
    }
    FindAbsent(rest, '?', 2);
    FindAbsent(rest, '#', 2);
    assert NetlocEnd(rest) == d;
    assert rest[2..d] == host && rest[d..] == p;
  }

  /** `urlsplit` assembled from its steps, when nothing is cut at '#'/'?'. */
  lemma UrlsplitOfSteps(url: string, scheme: string, rest: string, netloc: string, p: string)
    requires Prepare(url) == url
    requires SplitScheme(url) == (scheme, rest)
    requires (StartsWith(rest, "//") && SplitNetloc(rest) == (netloc, p))
          || (!StartsWith(rest, "//") && netloc == "" && p == rest)
    requires !UnbalancedBrackets(netloc) && '#' !in p && '?' !in p
    ensures Urlsplit(url) == Success(Parsed(scheme, netloc, p, "", "", ""))
  {
  }

  /** Without a ';' in the path, `urlparse` adds nothing to `urlsplit`. */
  lemma UrlparseWithoutParams(raw: string, parsed: Parsed)
    requires Urlsplit(raw) == Success(parsed) && ';' !in parsed.path
    ensures Urlparse(raw) == Success(parsed)
  {
  }

  /** Everything after "//host" is the path: the host (and the scheme, when
      the URL has one of "http:" or "https:") is discarded. */
  lemma AuthorityDropped(prefix: string, host: string, p: string)
    requires prefix == "" || prefix == "http:" || prefix == "https:"
    requires PlainHost(host) && PlainTail(p)
    ensures var r := Urlparse(prefix + "//" + host + p);
      r.Success? && r.value.path == p && r.value.netloc == host
  {
    var rest := "//" + host + p;
    var url := prefix + rest;
    assert url == prefix + "//" + host + p;
    assert NoUnsafe(prefix + "//");
    PrepareKeeps(url);
    SchemeOfPrefix(prefix, rest);
    NetlocOfParts(host, p);
    var scheme := if prefix == "" then "" else prefix[..|prefix| - 1];
    UrlsplitOfSteps(url, scheme, rest, host, p);
    UrlparseWithoutParams(url, Parsed(scheme, host, p, "", "", ""));
  }

  /** A network location with a '[' and no ']' (or the reverse) makes
      `urlsplit`, and so `urlparse`, raise "Invalid IPv6 URL". */
  lemma UnbalancedHostFails(host: string, p: string)
    requires HostText(host) && UnbalancedBrackets(host) && PlainTail(p)
    ensures Urlparse("//" + host + p) == Failure(InvalidIPv6)
  {
    var url := "//" + host + p;
    assert NoUnsafe(url) by {
      assert forall x | x in url :: x in "//" || x in host || x in p;
    }
    PrepareKeeps(url);
    SchemeOfPrefix("", url);
    assert "" + url == url;
    NetlocOfParts(host, p);
  }

  /** A path that starts with a single '/' and holds nothing `urlparse`
      cuts at parses as itself: no scheme, no network location. */
  lemma PlainPathKept(p: string)
    requires PlainTail(p) && p != "" && !StartsWith(p, "//")
    ensures Urlparse(p) == Success(Parsed("", "", p, "", "", ""))
  {
    PrepareKeeps(p);
    assert !HasScheme(p) by { assert !IsAsciiAlpha(p[0]); }
    UrlsplitOfSteps(p, "", p, "", p);
    UrlparseWithoutParams(p, Parsed("", "", p, "", "", ""));
  }

  /** After an "http:" scheme, a remainder that does not begin with "//"
      is all path, whatever it looks like, even a complete URL. */
  lemma OpaqueAfterHttp(rest: string)
    requires rest != "" && !StartsWith(rest, "//")
    requires NoUnsafe(rest) && '?' !in rest && '#' !in rest && ';' !in rest
    ensures var r := Urlparse("http:" + rest);
      r.Success? && r.value.path == rest && r.value.netloc == ""
  {
    var url := "http:" + rest;
    assert NoUnsafe("http:");
    PrepareKeeps(url);
    var i := 4;
    assert url[i] == ':';
    FindFirst(url, ':', 0, i);
    assert url[..i] == "http";
    assert HasScheme(url);
    assert Lower(url[..i]) == "http";
    assert url[i + 1..] == rest;
    assert SplitScheme(url) == ("http", rest);
    UrlsplitOfSteps(url, "http", rest, "", rest);
    UrlparseWithoutParams(url, Parsed("http", "", rest, "", "", ""));
  }

  /** A URL that starts with a single '/' has no scheme and no network
      location: all of it goes on to the fragment and query cuts. */
  lemma RootedHasNoAuthority(url: string)
    requires url != "" && url[0] == '/' && !StartsWith(url, "//")
    ensures SplitScheme(url) == ("", url)
  {
    assert !HasScheme(url) by { assert !IsAsciiAlpha(url[0]); }
  }

  /** Only the first character of a path decides whether the URL starts
      with "//". */
  lemma StartsWithSlashes(p: string, rest: string)
    requires p != "" && !StartsWith(p, "//")
    requires |p| == 1 ==> rest == "" || rest[0] != '/'
    ensures !StartsWith(p + rest, "//")
  {
    if |p| == 1 && rest != "" {
      assert (p + rest)[1] == rest[0];
    } else if |p| >= 2 {
      assert (p + rest)[..2] == p[..2];
    }
  }

  /** Cutting at the first `c` of `x + [c] + y`, when `x` has none,
      gives `x` and `y`. */
  lemma CutAtFirst(x: string, c: char, y: string)
    requires c !in x
    ensures CutAt(x + [c] + y, c) == (x, y)
  {
    var s := x + [c] + y;
    FindFirst(s, c, 0, |x|) by {
      forall k | 0 <= k < |x| ensures s[k] != c {
        assert s[k] == x[k];
      }
    }
    assert s[..|x|] == x && s[|x| + 1..] == y;
  }

  /** The path ends at the first '?' and the query at the first '#'
      after it; everything after that '#' is the fragment. */
  lemma {:induction false} QueryCut(p: string, q: string, f: string)
    requires PlainTail(p) && p != "" && !StartsWith(p, "//")
    requires NoUnsafe(q) && NoUnsafe(f) && '#' !in q
    ensures Urlparse(p + "?" + q + "#" + f) == Success(Parsed("", "", p, "", q, f))
  {
    var head := p + "?" + q;
    var url := head + "#" + f;
    assert p + "?" + q + "#" + f == url;
    assert '#' !in head by {
      assert forall x | x in head :: x in p || x in q || x == '?';
    }
    assert NoUnsafe(url) by {
      assert forall x | x in url :: x in p || x in q || x in f || x == '?' || x == '#';
    }
    PrepareKeeps(url);
    StartsWithSlashes(p, "?" + q + "#" + f);
    RootedHasNoAuthority(url);
    CutAtFirst(head, '#', f);
    CutAtFirst(p, '?', q);
    assert Urlsplit(url) == Success(Parsed("", "", p, "", q, f));
    UrlparseWithoutParams(url, Parsed("", "", p, "", q, f));
  }

  /** Without a '?' before it, the path ends at the first '#' and the rest
      is the fragment, even when it holds a '?'. */
  lemma {:induction false} FragmentCut(p: string, f: string)
    requires PlainTail(p) && p != "" && !StartsWith(p, "//")
    requires NoUnsafe(f)
    ensures Urlparse(p + "#" + f) == Success(Parsed("", "", p, "", "", f))
  {
    var url := p + "#" + f;
    assert NoUnsafe(url) by {
      assert forall x | x in url :: x in p || x in f || x == '#';
    }
    PrepareKeeps(url);
    StartsWithSlashes(p, "#" + f);
    RootedHasNoAuthority(url);
    CutAtFirst(p, '#', f);
    assert Urlsplit(url) == Success(Parsed("", "", p, "", "", f));
    UrlparseWithoutParams(url, Parsed("", "", p, "", "", f));
  }

  /** The ';' right after a path that starts with '/' and has none of its
      own is where `_splitparams` cuts. */
  lemma ParamsSplitAfterPath(p: string, a: string)
    requires p != "" && p[0] == '/' && ';' !in p && '/' !in a
    ensures ';' in p + ";" + a
    ensures SplitParams(p + ";" + a) == (p, a)
  {
    var url := p + ";" + a;
    assert url[|p|] == ';' && url[0] == '/';
    var last := RFind(url, '/');
    assert 0 <= last < |p| by {
      forall k | |p| <= k < |url| ensures url[k] != '/' {
        if k > |p| { assert url[k] == a[k - |p| - 1]; }
      }
    }
    FindFirst(url, ';', last, |p|) by {
      forall k | last <= k < |p| ensures url[k] != ';' {
        assert url[k] == p[k];
      }
    }
    assert url[..|p|] == p && url[|p| + 1..] == a;
  }

  /** A URL without a scheme uses params: the path ends at the first ';'
      after its last '/', and the rest is the params. */
  lemma {:induction false} ParamsCut(p: string, a: string)
    requires PlainTail(p) && p != "" && !StartsWith(p, "//")
    requires NoUnsafe(a) && '/' !in a && '?' !in a && '#' !in a
    ensures Urlparse(p + ";" + a) == Success(Parsed("", "", p, a, "", ""))
  {
    var url := p + ";" + a;
    assert NoUnsafe(url) by {
      assert forall x | x in url :: x in p || x in a || x == ';';
    }
    assert '?' !in url && '#' !in url by {
      assert forall x | x in url :: x in p || x in a || x == ';';
    }
    PrepareKeeps(url);
    StartsWithSlashes(p, ";" + a);
    RootedHasNoAuthority(url);
    assert CutAt(url, '#') == (url, "");
    assert CutAt(url, '?') == (url, "");
    assert Urlsplit(url) == Success(Parsed("", "", url, "", "", ""));
    ParamsSplitAfterPath(p, a);
  }

  /** A URL that starts with a single '/' and holds no tab, CR or LF splits
      without error, with neither a scheme nor a network location. */
  lemma RootedSplits(url: string)
    requires url != "" && url[0] == '/' && !StartsWith(url, "//") && NoUnsafe(url)
    ensures Urlsplit(url).Success?
    ensures Urlsplit(url).value.scheme == "" && Urlsplit(url).value.netloc == ""
  {
    PrepareKeeps(url);
    RootedHasNoAuthority(url);
  }

  /** A URL that starts with '/' has no scheme. */
  lemma RootedHasNoScheme(url: string)
    requires url != "" && url[0] == '/' && NoUnsafe(url)
    ensures Urlsplit(url).Success? ==> Urlsplit(url).value.scheme == ""
  {
    PrepareKeeps(url);
    assert !HasScheme(url) by { assert !IsAsciiAlpha(url[0]); }
  }

  /** Lower-case letters before the first ':' are taken as the scheme;
      without a bracket after the ':' the split does not raise. */
  lemma LetterSchemeSplits(scheme: string, body: string)
    requires scheme != "" && forall k | 0 <= k < |scheme| :: 'a' <= scheme[k] <= 'z'
    requires NoUnsafe(body) && '[' !in body && ']' !in body
    ensures Urlsplit(scheme + ":" + body).Success?
    ensures Urlsplit(scheme + ":" + body).value.scheme == scheme
  {
    var url := scheme + ":" + body;
    assert forall k | 0 <= k < |scheme| :: url[k] == scheme[k];
    assert NoUnsafe(url) by {
      forall k | 0 <= k < |url| ensures !IsUnsafe(url[k]) {
        if k > |scheme| { assert url[k] == body[k - |scheme| - 1]; }
      }
    }
    PrepareKeeps(url);
    FindFirst(url, ':', 0, |scheme|);
    assert url[..|scheme|] == scheme;
    assert HasScheme(url);
    assert Lower(scheme) == scheme;
    assert url[|scheme| + 1..] == body;
    assert SplitScheme(url) == (scheme, body);
    if StartsWith(body, "//") {
      var nr := SplitNetloc(body);
      assert forall x | x in nr.0 :: x in nr.0 + nr.1;
    }
  }
}

=== FILE: utils.dfy ===
/** `django_microsoft_sso/utils.py`: masking a credential for log output.
    `send_message` (logging plus the messages framework) is I/O and is not
    modelled. */
module Utils {
  import opened Wrappers
  import opened PyStr

  /** How many characters are kept at each end of a masked credential. */
  const Shown: nat := 5

  function Min(a: int, b: int): int {
    if a <= b then a else b
  }

  /** `show_credential`: the head slice `[:5]`, then `...`, then the tail slice
      `[-5:]`, with Python's clamping of out-of-range slice bounds. */
  function ShowCredential(credential: string): (r: string)
    ensures var m := Min(Shown, |credential|);
      && r == credential[..m] + "..." + credential[|credential| - m..]
      && |r| == 2 * m + 3
      && r[m..m + 3] == "..."
    ensures |credential| <= Shown ==> r == credential + "..." + credential
  {
    SliceHead(credential, Shown);
    SliceTail(credential, Shown);
    Slice(credential, None, Some(Shown)) + "..." + Slice(credential, Some(-(Shown as int)), None)
  }
}

=== FILE: views.dfy ===
/** `django_microsoft_sso/views.py`: `start_login`, which remembers where to
    send the user after login and hands over to the identity provider, and
    `callback`, the chain of checks that ends either in a failure redirect
    or in a login.

    The request, the session and the provider's answers are records; the
    URL resolver (`reverse`) and the pre-login hook are function
    parameters. */
module Views {
  import opened Wrappers
  import opened PyStr
  import Conf
  import UrlParse
  import opened Models
  import opened UserHelper

  // ---------------------------------------------------------------------
  // The session
  // ---------------------------------------------------------------------

  /** The session keys the views read and write. `graphInfo` is
      `msal_graph_info` (the provider's flow, holding its `state`),
      `nextUrl` is `sso_next_url`, `accessToken` is
      `microsoft_sso_access_token`; `loggedInUser`, `backend` and
      `authHash` (the user's session auth hash) are what Django's `login`
      records. */
  datatype Session = Session(
    hasKey: bool,
    expiry: Option<int>,
    graphInfo: Option<map<string, string>>,
    nextUrl: Option<string>,
    accessToken: Option<string>,
    loggedInUser: Option<nat>,
    backend: Option<string>,
    authHash: Option<string>)

  /** The session as `flush` leaves it: no key and no data. */
  const EmptySession := Session(false, None, None, None, None, None, None, None)

  /** Whether Django's `login` keeps the session's data. It does when no
      user is logged in yet (it then only cycles the key), or when the same
      user is, with the same session auth hash; an empty hash is not
      compared. Otherwise it flushes the session first, so that one user's
      session is never reused for another. */
  predicate KeepsSession(s: Session, id: nat, userHash: string) {
    || s.loggedInUser.None?
    || (s.loggedInUser == Some(id) && (userHash == "" || s.authHash.GetOr("") == userHash))
  }

  /** `session.get("msal_graph_info", {}).get("state")` */
  function SessionState(s: Session): Option<string> {
    if s.graphInfo.Some? && "state" in s.graphInfo.value then Some(s.graphInfo.value["state"])
    else None
  }

  // ---------------------------------------------------------------------
  // start_login
  // ---------------------------------------------------------------------

  /** The `next` parameter as `start_login` prepares it for parsing: a value
      that starts with neither "http" nor "/" is read as a host by
      prefixing "//"; an absent or empty one is replaced by the default
      next URL. */
  function CleanParam(next: Option<string>, defaultNext: string): (r: string)
    ensures !TruthyOpt(next) ==> r == defaultNext
    ensures TruthyOpt(next) ==> r == next.value || r == "//" + next.value
    ensures TruthyOpt(next) ==> StartsWith(r, "http") || StartsWith(r, "/")
    ensures TruthyOpt(next) && StartsWith(next.value, "/") ==> r == next.value
  {
    assert TruthyOpt(next) ==> ("//" + next.value)[..1] == "/";
    if TruthyOpt(next) then
      if StartsWith(next.value, "http") || StartsWith(next.value, "/") then next.value
      else "//" + next.value
    else defaultNext
  }

  /** The stored next path as `views.py` computes it: the path component of
      the cleaned parameter. `urlparse` raises on an unbalanced bracket in
      the host. */
  function NextPathAsWritten(next: Option<string>, defaultNext: string): (r: Result<string, string>)
    ensures r.Failure? ==> r.error == UrlParse.InvalidIPv6
    ensures r.Success? ==> '?' !in r.value && '#' !in r.value
    ensures r.Success? ==> UrlParse.NoUnsafe(r.value)
  {
    match UrlParse.Urlparse(CleanParam(next, defaultNext))
    case Failure(e) => Failure(e)
    case Success(parsed) => Success(parsed.path)
  }

  /** A redirect target that stays on this site: empty (the default is used
      instead) or a path that starts with exactly one '/'. Browsers read
      "//host" and "/\host" as a different host. */
  predicate IsLocal(p: string) {
    p == "" || (p[0] == '/' && (|p| == 1 || (p[1] != '/' && p[1] != '\\')))
  }

  /** The path with its leading '/' and '\' removed. */
  function DropLeadingSlashes(p: string): (r: string)
    ensures r == "" || (r[0] != '/' && r[0] != '\\')
    ensures |r| <= |p|
    ensures forall x | x in r :: x in p
  {
    if p != "" && (p[0] == '/' || p[0] == '\\') then DropLeadingSlashes(p[1..]) else p
  }

  /** The stored next path, corrected so that it is always local: a path
      that would leave the site is re-rooted at "/". Local paths are kept
      as they are. */
  function NextPath(next: Option<string>, defaultNext: string): (r: Result<string, string>)
    ensures r.Success? ==> IsLocal(r.value) && UrlParse.NoUnsafe(r.value)
    ensures r.Failure? <==> NextPathAsWritten(next, defaultNext).Failure?
    ensures r.Failure? ==> r.error == UrlParse.InvalidIPv6
    ensures NextPathAsWritten(next, defaultNext).Success? && IsLocal(NextPathAsWritten(next, defaultNext).value)
      ==> r == NextPathAsWritten(next, defaultNext)
    ensures NextPathAsWritten(next, defaultNext).Success? && !IsLocal(NextPathAsWritten(next, defaultNext).value)
      ==> r == Success("/" + DropLeadingSlashes(NextPathAsWritten(next, defaultNext).value))
  {
    match NextPathAsWritten(next, defaultNext)
    case Failure(e) => Failure(e)
    case Success(p) => Success(if IsLocal(p) then p else "/" + DropLeadingSlashes(p))
  }

  /** As written, the stored next path can name another site: four slashes
      leave an empty network location and "//host/..." as the path, which a
      browser reads as a link to that host. (`NextPath` re-roots such a
      path at "/".) */
  lemma FourSlashesAsWritten(host: string, p: string, defaultNext: string)
    requires host != "" && UrlParse.HostText(host) && ';' !in host && UrlParse.PlainTail(p)
    ensures NextPathAsWritten(Some("////" + host + p), defaultNext) == Success("//" + host + p)
    ensures !IsLocal("//" + host + p)
  {
    var tail := "//" + host + p;
    assert UrlParse.PlainTail(tail) by {
      assert forall c | c in tail :: c in "//" || c in host || c in p;
    }
    var next := "////" + host + p;
    assert next == "" + "//" + "" + tail;
    assert StartsWith(next, "/") by { assert next[..1] == "/"; }
    assert CleanParam(Some(next), defaultNext) == next;
    UrlParse.AuthorityDropped("", "", tail);
    assert tail[1] == '/';
  }

  /** Re-rooting a "//host/..." path gives "/host/...". */
  lemma ReRootNetworkPath(host: string, p: string)
    requires host != "" && host[0] != '/' && host[0] != '\\'
    ensures DropLeadingSlashes("//" + host + p) == host + p
  {
    var tail := "//" + host + p;
    assert tail[1..] == "/" + host + p;
    assert tail[1..][1..] == host + p;
    assert (host + p)[0] == host[0];
    assert DropLeadingSlashes(host + p) == host + p;
    assert DropLeadingSlashes(tail[1..]) == DropLeadingSlashes(host + p);
  }

  /** As written, "http:" followed by anything that does not start with
      "//" passes the "http" prefix test and is kept whole as the path: for
      "http:https://evil.com/x" the stored path is "https://evil.com/x". */
  lemma HttpPrefixAsWritten(rest: string, defaultNext: string)
    requires rest != "" && rest[0] != '/' && rest[0] != '\\'
    requires UrlParse.NoUnsafe(rest) && '?' !in rest && '#' !in rest && ';' !in rest
    ensures NextPathAsWritten(Some("http:" + rest), defaultNext) == Success(rest)
    ensures !IsLocal(rest)
  {
    var next := "http:" + rest;
    assert StartsWith(next, "http") by { assert next[..4] == "http"; }
    assert !StartsWith(rest, "//") by { if |rest| >= 2 { assert rest[..2][0] == rest[0]; } }
    UrlParse.OpaqueAfterHttp(rest);
  }

  /** A `next` that is a full URL, or a network-path reference "//host/...",
      keeps only its path: host and scheme are discarded, as written and
      after the correction alike. */
  lemma AbsoluteNextDiscarded(prefix: string, host: string, p: string, defaultNext: string)
    requires prefix == "" || prefix == "http:" || prefix == "https:"
    requires UrlParse.PlainHost(host) && UrlParse.PlainTail(p) && IsLocal(p)
    ensures NextPathAsWritten(Some(prefix + "//" + host + p), defaultNext) == Success(p)
    ensures NextPath(Some(prefix + "//" + host + p), defaultNext) == Success(p)
  {
    var next := prefix + "//" + host + p;
    if prefix == "" {
      assert next[..1] == "/";
    } else {
      assert next[..4] == "http";
    }
    assert CleanParam(Some(next), defaultNext) == next;
    UrlParse.AuthorityDropped(prefix, host, p);
  }

  /** A bare "host/path" `next` is read as a host followed by a path, and
      only the path is kept, as written and after the correction alike. */
  lemma BareHostDiscarded(host: string, p: string, defaultNext: string)
    requires host != "" && UrlParse.PlainHost(host) && UrlParse.PlainTail(p) && IsLocal(p)
    requires !StartsWith(host + p, "http")
    ensures NextPathAsWritten(Some(host + p), defaultNext) == Success(p)
    ensures NextPath(Some(host + p), defaultNext) == Success(p)
  {
    var next := host + p;
    assert next[0] == host[0] && host[0] in host;
    assert !StartsWith(next, "/");
    assert CleanParam(Some(next), defaultNext) == "" + "//" + host + p;
    UrlParse.AuthorityDropped("", host, p);
  }

  /** The bare-host `next` values of the view tests, "bad-domain.com/secret/"
      and "www.bad-domain.com/secret/", are stored as "/secret/". */
  lemma BareHostCase(host: string, defaultNext: string)
    requires host == "bad-domain.com" || host == "www.bad-domain.com"
    ensures NextPathAsWritten(Some(host + "/secret/"), defaultNext) == Success("/secret/")
    ensures NextPath(Some(host + "/secret/"), defaultNext) == Success("/secret/")
  {
    var p := "/secret/";
    assert UrlParse.PlainTail(p);
    assert UrlParse.PlainHost(host);
    assert !StartsWith(host + p, "http") by { assert (host + p)[0] == host[0]; }
    BareHostDiscarded(host, p, defaultNext);
  }

  /** The URL-shaped `next` values of the view tests,
      "//bad-domain.com/secret/", "http://bad-domain.com/secret/" and
      "https://malicious.example.com/secret/", are stored as "/secret/". */
  lemma AbsoluteCase(prefix: string, host: string, defaultNext: string)
    requires prefix == "" || prefix == "http:" || prefix == "https:"
    requires host == "bad-domain.com" || host == "malicious.example.com"
    ensures NextPathAsWritten(Some(prefix + "//" + host + "/secret/"), defaultNext) == Success("/secret/")
    ensures NextPath(Some(prefix + "//" + host + "/secret/"), defaultNext) == Success("/secret/")
  {
    var p := "/secret/";
    assert UrlParse.PlainTail(p);
    assert UrlParse.PlainHost(host);
    AbsoluteNextDiscarded(prefix, host, p, defaultNext);
  }

  /** A local path such as "/secret/" is stored unchanged, as written and
      after the correction alike. */
  lemma LocalNextKept(p: string, defaultNext: string)
    requires p != "" && IsLocal(p) && UrlParse.PlainTail(p)
    ensures NextPathAsWritten(Some(p), defaultNext) == Success(p)
    ensures NextPath(Some(p), defaultNext) == Success(p)
  {
    assert StartsWith(p, "/") by { assert p[..1] == [p[0]]; }
    assert !StartsWith(p, "//") by { if |p| >= 2 { assert p[..2][1] == p[1]; } }
    UrlParse.PlainPathKept(p);
  }

  /** A local `next` with a query and a fragment, such as
      "/secret/?tab=1#top", is stored without them, as written and after
      the correction alike. */
  lemma QueryAndFragmentDropped(p: string, q: string, f: string, defaultNext: string)
    requires p != "" && IsLocal(p) && UrlParse.PlainTail(p)
    requires UrlParse.NoUnsafe(q) && UrlParse.NoUnsafe(f) && '#' !in q
    ensures NextPathAsWritten(Some(p + "?" + q + "#" + f), defaultNext) == Success(p)
    ensures NextPath(Some(p + "?" + q + "#" + f), defaultNext) == Success(p)
  {
    var next := p + "?" + q + "#" + f;
    assert StartsWith(next, "/") by { assert next[..1] == [p[0]]; }
    assert !StartsWith(p, "//") by { if |p| >= 2 { assert p[..2][1] == p[1]; } }
    UrlParse.QueryCut(p, q, f);
  }

  /** A local `next` with only a fragment is stored without it; a '?'
      after the '#' belongs to the fragment. */
  lemma FragmentDropped(p: string, f: string, defaultNext: string)
    requires p != "" && IsLocal(p) && UrlParse.PlainTail(p) && UrlParse.NoUnsafe(f)
    ensures NextPathAsWritten(Some(p + "#" + f), defaultNext) == Success(p)
    ensures NextPath(Some(p + "#" + f), defaultNext) == Success(p)
  {
    var next := p + "#" + f;
    assert StartsWith(next, "/") by { assert next[..1] == [p[0]]; }
    assert !StartsWith(p, "//") by { if |p| >= 2 { assert p[..2][1] == p[1]; } }
    UrlParse.FragmentCut(p, f);
  }

  /** A local `next` with ";params" after its last '/' is stored without
      them. */
  lemma ParamsDropped(p: string, a: string, defaultNext: string)
    requires p != "" && IsLocal(p) && UrlParse.PlainTail(p)
    requires UrlParse.NoUnsafe(a) && '/' !in a && '?' !in a && '#' !in a
    ensures NextPathAsWritten(Some(p + ";" + a), defaultNext) == Success(p)
    ensures NextPath(Some(p + ";" + a), defaultNext) == Success(p)
  {
    var next := p + ";" + a;
    assert StartsWith(next, "/") by { assert next[..1] == [p[0]]; }
    assert !StartsWith(p, "//") by { if |p| >= 2 { assert p[..2][1] == p[1]; } }
    UrlParse.ParamsCut(p, a);
  }

  /** Without a `next` (or with an empty one) the default next URL is
      stored, when it is itself a local path, as written and after the
      correction alike. */
  lemma MissingNextUsesDefault(next: Option<string>, defaultNext: string)
    requires !TruthyOpt(next)
    requires defaultNext != "" && IsLocal(defaultNext) && UrlParse.PlainTail(defaultNext)
    ensures NextPathAsWritten(next, defaultNext) == Success(defaultNext)
    ensures NextPath(next, defaultNext) == Success(defaultNext)
  {
    assert !StartsWith(defaultNext, "//") by {
      if |defaultNext| >= 2 { assert defaultNext[..2][1] == defaultNext[1]; }
    }
    UrlParse.PlainPathKept(defaultNext);
  }

  /** `start_login`'s outcome: the session it saved and the provider URL
      the user is redirected to. */
  datatype Started = Started(session: Session, redirect: string)

  /** `start_login`. `flow` is the provider flow the view stores
      (`ms_auth.result`), `authUri` the provider login URL
      (`get_auth_uri()`) and `defaultNext` the resolved
      `MICROSOFT_SSO_NEXT_URL`. The session gets a key if it had none, an
      expiry of `MICROSOFT_SSO_TIMEOUT` minutes, the flow and the next
      path. */
  function StartLogin(cfg: Conf.Config, s: Session, next: Option<string>, defaultNext: string,
                      flow: map<string, string>, authUri: string): (r: Result<Started, string>)
    ensures r.Failure? <==> NextPathAsWritten(next, defaultNext).Failure?
    ensures r.Success? ==>
      && r.value.redirect == authUri
      && r.value.session.hasKey
      && r.value.session.expiry == Some(cfg.timeout * 60)
      && r.value.session.graphInfo == Some(flow)
      && r.value.session.nextUrl.Some? && IsLocal(r.value.session.nextUrl.value)
      && Success(r.value.session.nextUrl.value) == NextPath(next, defaultNext)
      && r.value.session.(hasKey := s.hasKey, expiry := s.expiry, graphInfo := s.graphInfo,
                          nextUrl := s.nextUrl) == s
  {
    match NextPath(next, defaultNext)
    case Failure(e) => Failure(e)
    case Success(path) =>
      var s1 := s.(hasKey := true, expiry := Some(cfg.timeout * 60), graphInfo := Some(flow), nextUrl := Some(path));
      Success(Started(s1, authUri))
  }

  /** `start_login` exactly as `views.py` writes it: the path `urlparse`
      returns is stored whether or not it stays on the site. It differs
      from `StartLogin` only in the stored next path, and not at all when
      that path is local. */
  function StartLoginAsWritten(cfg: Conf.Config, s: Session, next: Option<string>, defaultNext: string,
                               flow: map<string, string>, authUri: string): (r: Result<Started, string>)
    ensures r.Failure? <==> StartLogin(cfg, s, next, defaultNext, flow, authUri).Failure?
    ensures r.Success? ==>
      && r.value.session.nextUrl == Some(NextPathAsWritten(next, defaultNext).value)
      && r.value.(session := r.value.session.(nextUrl := s.nextUrl))
         == StartLogin(cfg, s, next, defaultNext, flow, authUri).value.(session :=
              StartLogin(cfg, s, next, defaultNext, flow, authUri).value.session.(nextUrl := s.nextUrl))
    ensures (NextPathAsWritten(next, defaultNext).Success? && IsLocal(NextPathAsWritten(next, defaultNext).value))
      ==> r == StartLogin(cfg, s, next, defaultNext, flow, authUri)
  {
    match NextPathAsWritten(next, defaultNext)
    case Failure(e) => Failure(e)
    case Success(path) =>
      var s1 := s.(hasKey := true, expiry := Some(cfg.timeout * 60), graphInfo := Some(flow), nextUrl := Some(path));
      Success(Started(s1, authUri))
  }

  // ---------------------------------------------------------------------
  // callback
  // ---------------------------------------------------------------------

  /** The query string of the callback request. */
  datatype Query = Query(code: Option<string>, state: Option<string>)

  /** What the provider gives the callback: the token result (a dictionary,
      possibly empty or missing), the user claims or the text of the
      exception raised while fetching them, and the access token stored
      when `MICROSOFT_SSO_SAVE_ACCESS_TOKEN` is on. */
  datatype Provider = Provider(
    token: Option<map<string, string>>,
    claims: Result<Claims, string>,
    accessToken: string)

  /** An exception that escapes the view: from the store, raised by the
      pre-login hook, or raised by Django's `login` (named by its exception
      class), or raised by Django's redirect response. */
  datatype Error =
    | StoreError(fault: Fault)
    | HookError(message: string)
    | LoginError(kind: string)
    | RedirectError(kind: string)

  datatype Outcome =
    | Failed(redirect: string, messages: seq<string>, store: Store)
    | LoggedIn(redirect: string, messages: seq<string>, session: Session, store: Store)
    | Uncaught(error: Error, session: Session, store: Store)

  const NotEnabled := "Microsoft SSO not enabled."
  const NoCode := "Authorization Code not received from SSO."
  const StateMismatch := "State Mismatch. Time expired?"
  const NoAuthData := "Authorization Data not received from SSO."
  const CredentialsHint := "Please check your Client Credentials for MS Entra App."

  function AuthErrorMessages(err: string): (r: seq<string>)
    ensures |r| == 1 || |r| == 2
    ensures r[0] == "Authorization Error received from SSO: " + err + "."
    ensures |r| == 2 <==> err == "invalid_client"
    ensures |r| == 2 ==> r[1] == CredentialsHint
  {
    ["Authorization Error received from SSO: " + err + "."]
      + (if err == "invalid_client" then [CredentialsHint] else [])
  }

  function NotAllowedMessage(email: string): string {
    "Email address not allowed: " + email + ". Please contact your administrator."
  }

  /** The stored state is present and not empty, and the query's state
      equals it. */
  predicate StateMatches(q: Query, s: Session) {
    TruthyOpt(SessionState(s)) && q.state == SessionState(s)
  }

  /** The token result is present, not empty, and carries no error. */
  predicate TokenOk(p: Provider) {
    p.token.Some? && p.token.value != map[] && "error" !in p.token.value
  }

  /** Every check before the user lookup passes. */
  predicate GuardsPass(cfg: Conf.Config, q: Query, s: Session, p: Provider) {
    && cfg.enabled
    && TruthyOpt(q.code)
    && StateMatches(q, s)
    && TokenOk(p)
    && p.claims.Success?
    && EmailAllowed(cfg.allowableDomains, UserEmail(p.claims.value))
  }

  /** The backend Django's `login(request, user, backend)` records:
      `MICROSOFT_SSO_AUTHENTICATION_BACKEND` when it is truthy; otherwise,
      since a user loaded from the database carries no `backend` attribute,
      the only entry of `AUTHENTICATION_BACKENDS`. With none configured
      `login` raises `ImproperlyConfigured`, with several `ValueError`. */
  function LoginBackend(cfg: Conf.Config, backends: seq<string>): (r: Result<string, string>)
    ensures TruthyOpt(cfg.authenticationBackend) ==> r == Success(cfg.authenticationBackend.value)
    ensures !TruthyOpt(cfg.authenticationBackend) ==>
      && (r.Success? <==> |backends| == 1)
      && (r.Success? ==> r.value == backends[0])
      && (|backends| == 0 ==> r == Failure("ImproperlyConfigured"))
      && (|backends| > 1 ==> r == Failure("ValueError"))
  {
    if TruthyOpt(cfg.authenticationBackend) then Success(cfg.authenticationBackend.value)
    else if |backends| == 1 then Success(backends[0])
    else if |backends| == 0 then Failure("ImproperlyConfigured")
    else Failure("ValueError")
  }

  /** Where a login sends the user: the stored next path, or the resolved
      `MICROSOFT_SSO_NEXT_URL` when none is stored. */
  function LoginTarget(cfg: Conf.Config, reverse: string -> string, s: Session): string {
    if TruthyOpt(s.nextUrl) then s.nextUrl.value else reverse(cfg.nextUrl)
  }

  /** The schemes Django's `HttpResponseRedirect` accepts. */
  const AllowedRedirectSchemes: seq<string> := ["http", "https", "ftp"]

  /** What constructing Django's `HttpResponseRedirect(target)` raises:
      `ValueError` when `urlparse` fails on the target, `DisallowedRedirect`
      when its scheme is non-empty and not one of http, https and ftp. */
  function RedirectFault(target: string): (r: Option<string>)
    ensures r == Some("ValueError") <==> UrlParse.Urlparse(target).Failure?
    ensures r == Some("DisallowedRedirect") <==>
      && UrlParse.Urlparse(target).Success?
      && UrlParse.Urlparse(target).value.scheme != ""
      && UrlParse.Urlparse(target).value.scheme !in AllowedRedirectSchemes
    ensures r.None? || r == Some("ValueError") || r == Some("DisallowedRedirect")
  {
    match UrlParse.Urlparse(target)
    case Failure(_) => Some("ValueError")
    case Success(parts) =>
      if parts.scheme != "" && parts.scheme !in AllowedRedirectSchemes then Some("DisallowedRedirect")
      else None
  }

  /** A target that starts with a single '/' and holds no tab, CR or LF is
      accepted: it has neither a scheme nor a network location. Every path
      `NextPath` stores is such a target. */
  lemma LocalTargetAccepted(p: string)
    requires p != "" && IsLocal(p) && UrlParse.NoUnsafe(p)
    ensures RedirectFault(p).None?
  {
    assert !StartsWith(p, "//") by { if |p| >= 2 { assert p[..2][1] == p[1]; } }
    UrlParse.RootedSplits(p);
  }

  /** A target whose scheme is anything but http, https or ftp, such as
      "javascript:...", is refused with `DisallowedRedirect`. */
  lemma ForeignSchemeRefused(scheme: string, body: string)
    requires scheme != "" && forall k | 0 <= k < |scheme| :: 'a' <= scheme[k] <= 'z'
    requires scheme !in AllowedRedirectSchemes
    requires UrlParse.NoUnsafe(body) && '[' !in body && ']' !in body
    ensures RedirectFault(scheme + ":" + body) == Some("DisallowedRedirect")
  {
    UrlParse.LetterSchemeSplits(scheme, body);
  }

  /** The end of the callback once the user lookup has returned: no user,
      or an inactive one, fails without a message of its own; otherwise the
      access token is saved if configured and the pre-login hook runs.
      Django's `login` then flushes the session unless `KeepsSession`
      holds, looks up the backend, and records the user, the backend and
      the user's session auth hash (`userHash`, an HMAC of the password
      field, which `set_unusable_password` makes random); after it the
      session expiry is set to the session cookie age. Last, the redirect
      response is built, which raises when Django refuses the target; the
      user stays logged in. The target was read before the login, so a
      flush does not change it. `backends` is Django's
      `AUTHENTICATION_BACKENDS`. */
  function Finish(cfg: Conf.Config, reverse: string -> string, backends: seq<string>, s: Session,
                  p: Provider, preLogin: User -> Option<string>, userHash: string, u: Option<User>,
                  messages: seq<string>, st: Store): (r: Outcome)
    ensures r.store == st
    ensures r.Failed? <==> u.None? || !u.value.isActive
    ensures r.Failed? ==> r.redirect == reverse(cfg.loginFailedUrl) && r.messages == messages
    ensures r.LoggedIn? <==>
      && u.Some? && u.value.isActive && preLogin(u.value).None? && LoginBackend(cfg, backends).Success?
      && RedirectFault(LoginTarget(cfg, reverse, s)).None?
    ensures r.LoggedIn? || (r.Uncaught? && r.error.RedirectError?) ==>
      && u.Some? && LoginBackend(cfg, backends).Success?
      && r.session.loggedInUser == Some(u.value.id)
      && r.session.backend == Some(LoginBackend(cfg, backends).value)
      && r.session.authHash == Some(userHash)
      && r.session.expiry == Some(cfg.sessionCookieAge)
      && (KeepsSession(s, u.value.id, userHash) ==>
            && r.session.accessToken == (if cfg.saveAccessToken then Some(p.accessToken) else s.accessToken)
            && r.session.(loggedInUser := s.loggedInUser, backend := s.backend, authHash := s.authHash,
                          expiry := s.expiry, accessToken := s.accessToken) == s)
      && (!KeepsSession(s, u.value.id, userHash) ==>
            r.session.(loggedInUser := None, backend := None, authHash := None, expiry := None) == EmptySession)
    ensures r.LoggedIn? ==> r.redirect == LoginTarget(cfg, reverse, s) && r.messages == messages
    ensures r.Uncaught? ==>
      && u.Some? && u.value.isActive
      && (preLogin(u.value).Some? ==> r.error == HookError(preLogin(u.value).value))
      && (preLogin(u.value).None? && LoginBackend(cfg, backends).Failure? ==>
            r.error == LoginError(LoginBackend(cfg, backends).error))
      && (preLogin(u.value).None? && LoginBackend(cfg, backends).Success? ==>
            && RedirectFault(LoginTarget(cfg, reverse, s)).Some?
            && r.error == RedirectError(RedirectFault(LoginTarget(cfg, reverse, s)).value))
    ensures r.Uncaught? && (r.error.HookError? || KeepsSession(s, u.value.id, userHash)) && !r.error.RedirectError? ==>
      && r.session.accessToken == (if cfg.saveAccessToken then Some(p.accessToken) else s.accessToken)
      && r.session.(accessToken := s.accessToken) == s
    ensures r.Uncaught? && r.error.LoginError? && !KeepsSession(s, u.value.id, userHash) ==>
      r.session == EmptySession
  {
    if u.None? || !u.value.isActive then Failed(reverse(cfg.loginFailedUrl), messages, st)
    else
      var s1 := if cfg.saveAccessToken then s.(accessToken := Some(p.accessToken)) else s;
      match preLogin(u.value)
      case Some(err) => Uncaught(HookError(err), s1, st)
      case None =>
        var s2 := if KeepsSession(s1, u.value.id, userHash) then s1 else EmptySession;
        match LoginBackend(cfg, backends)
        case Failure(kind) => Uncaught(LoginError(kind), s2, st)
        case Success(backend) =>
          var s3 := s2.(loggedInUser := Some(u.value.id), backend := Some(backend),
                        authHash := Some(userHash), expiry := Some(cfg.sessionCookieAge));
          var target := LoginTarget(cfg, reverse, s);
          match RedirectFault(target)
          case Some(kind) => Uncaught(RedirectError(kind), s3, st)
          case None => LoggedIn(target, messages, s3, st)
  }

  /** A login over another user's session starts from an empty session:
      the access token just saved, the flow and the next URL are gone, and
      only what `login` and the expiry record remain. */
  lemma LoginOverAnotherUserFlushes(cfg: Conf.Config, reverse: string -> string, backends: seq<string>,
                                    s: Session, p: Provider, preLogin: User -> Option<string>,
                                    userHash: string, u: User, messages: seq<string>, st: Store)
    requires s.loggedInUser.Some? && s.loggedInUser != Some(u.id)
    requires u.isActive && preLogin(u).None?
    ensures var r := Finish(cfg, reverse, backends, s, p, preLogin, userHash, Some(u), messages, st);
      && (r.Uncaught? || r.LoggedIn?)
      && r.session.accessToken.None? && r.session.graphInfo.None? && r.session.nextUrl.None?
      && !r.session.hasKey
      && (r.LoggedIn? ==> r.session.loggedInUser == Some(u.id) && r.redirect == LoginTarget(cfg, reverse, s))
  {
    assert !KeepsSession(s, u.id, userHash);
  }

  /** The same user logging in again with a session auth hash that differs
      from the stored one (its password changed, as `set_unusable_password`
      does) also gets a flushed session. */
  lemma StaleAuthHashFlushes(cfg: Conf.Config, reverse: string -> string, backends: seq<string>,
                             s: Session, p: Provider, preLogin: User -> Option<string>,
                             userHash: string, u: User, messages: seq<string>, st: Store)
    requires s.loggedInUser == Some(u.id) && userHash != "" && s.authHash != Some(userHash)
    requires u.isActive && preLogin(u).None?
    ensures var r := Finish(cfg, reverse, backends, s, p, preLogin, userHash, Some(u), messages, st);
      && (r.Uncaught? || r.LoggedIn?)
      && r.session.accessToken.None? && r.session.graphInfo.None? && r.session.nextUrl.None?
      && (r.LoggedIn? ==> r.session.authHash == Some(userHash))
  {
    assert s.authHash.GetOr("") != userHash;
    assert !KeepsSession(s, u.id, userHash);
  }

  /** A first login in this session, or the same user with an unchanged
      hash, keeps the session's data: the token is saved as configured and
      the next URL and flow stay. */
  lemma FreshOrSameLoginKeeps(cfg: Conf.Config, reverse: string -> string, backends: seq<string>,
                              s: Session, p: Provider, preLogin: User -> Option<string>,
                              userHash: string, u: User, messages: seq<string>, st: Store)
    requires s.loggedInUser.None? || (s.loggedInUser == Some(u.id) && s.authHash == Some(userHash))
    requires u.isActive && preLogin(u).None? && LoginBackend(cfg, backends).Success?
    ensures var r := Finish(cfg, reverse, backends, s, p, preLogin, userHash, Some(u), messages, st);
      && (r.LoggedIn? || r.Uncaught?)
      && r.session.accessToken == (if cfg.saveAccessToken then Some(p.accessToken) else s.accessToken)
      && r.session.graphInfo == s.graphInfo && r.session.nextUrl == s.nextUrl && r.session.hasKey == s.hasKey
  {
    assert KeepsSession(s, u.id, userHash);
  }

  /** When the user lookup ends in a login: `login` finds a backend, and
      the lookup yields an active user whom the pre-login hook lets
      through. With `MICROSOFT_SSO_AUTO_CREATE_USERS` on that user is the
      one `get_or_create_user` saved (active exactly when it is new or the
      existing match is active); with it off, it is the only user whose
      email equals the mail claim. */
  predicate LogsIn(cfg: Conf.Config, backends: seq<string>, preLogin: User -> Option<string>,
                   c: Claims, st: Store) {
    && LoginBackend(cfg, backends).Success?
    && if cfg.autoCreateUsers then
         var g := GetOrCreateUser(cfg, c, st);
         g.Resolved? && g.user.isActive && preLogin(g.user).None?
       else
         var m := WithEmail(st.users, c.mail);
         |m| == 1 && m[0].isActive && preLogin(m[0]).None?
  }

  /** The user lookup of the callback: `get_or_create_user` when
      `MICROSOFT_SSO_AUTO_CREATE_USERS` is on, `find_user` otherwise. */
  function LookupAndFinish(cfg: Conf.Config, reverse: string -> string, backends: seq<string>,
                           s: Session, p: Provider, preLogin: User -> Option<string>, userHash: string, c: Claims,
                           st: Store): (r: Outcome)
    ensures r.LoggedIn? <==>
      LogsIn(cfg, backends, preLogin, c, st) && RedirectFault(LoginTarget(cfg, reverse, s)).None?
    ensures LogsIn(cfg, backends, preLogin, c, st) && RedirectFault(LoginTarget(cfg, reverse, s)).Some? ==>
      && r.Uncaught? && r.error == RedirectError(RedirectFault(LoginTarget(cfg, reverse, s)).value)
      && r.session.loggedInUser.Some?
    ensures r.LoggedIn? && cfg.autoCreateUsers ==>
      && r.session.loggedInUser == Some(GetOrCreateUser(cfg, c, st).user.id)
      && r.store == GetOrCreateUser(cfg, c, st).store
    ensures r.LoggedIn? && !cfg.autoCreateUsers ==>
      r.session.loggedInUser == Some(WithEmail(st.users, c.mail)[0].id)
    ensures r.LoggedIn? ==>
      && r.session.expiry == Some(cfg.sessionCookieAge)
      && r.redirect == LoginTarget(cfg, reverse, s)
      && r.session.loggedInUser.Some?
      && exists u | u in r.store.users :: u.id == r.session.loggedInUser.value && u.isActive && u.email == c.mail
    ensures !cfg.autoCreateUsers ==> r.store == st
    ensures Valid(st) ==> Valid(r.store)
  {
    if cfg.autoCreateUsers then
      match GetOrCreateUser(cfg, c, st)
      case Raised(st1, f) => Uncaught(StoreError(f), s, st1)
      case Resolved(st1, u, messages) => Finish(cfg, reverse, backends, s, p, preLogin, userHash, Some(u), messages, st1)
    else
      match FindUser(c, st)
      case Failure(f) => Uncaught(StoreError(f), s, st)
      case Success(u) =>
        assert u.Some? ==> WithEmail(st.users, c.mail) == [u.value];
        Finish(cfg, reverse, backends, s, p, preLogin, userHash, u, [], st)
  }

  /** `callback`. The checks run in this order and the first that fails
      decides the outcome: SSO enabled, an authorization code, the state
      stored by `start_login` equal to the returned one, a token result
      without error, the claims fetched, the email allowed; then the user
      is looked up or created and, when found and active, logged in. */
  function Callback(cfg: Conf.Config, reverse: string -> string, backends: seq<string>, q: Query,
                    s: Session, p: Provider, preLogin: User -> Option<string>, userHash: string, st: Store): (r: Outcome)
    ensures !cfg.enabled ==> r == Failed(reverse(cfg.loginFailedUrl), [NotEnabled], st)
    ensures cfg.enabled && !TruthyOpt(q.code) ==> r == Failed(reverse(cfg.loginFailedUrl), [NoCode], st)
    ensures cfg.enabled && TruthyOpt(q.code) && !StateMatches(q, s) ==>
      r == Failed(reverse(cfg.loginFailedUrl), [StateMismatch], st)
    ensures (&& cfg.enabled && TruthyOpt(q.code) && StateMatches(q, s)
             && (p.token.None? || p.token.value == map[])) ==>
      r == Failed(reverse(cfg.loginFailedUrl), [NoAuthData], st)
    ensures (&& cfg.enabled && TruthyOpt(q.code) && StateMatches(q, s)
             && p.token.Some? && p.token.value != map[] && "error" in p.token.value) ==>
      r == Failed(reverse(cfg.loginFailedUrl), AuthErrorMessages(p.token.value["error"]), st)
    ensures cfg.enabled && TruthyOpt(q.code) && StateMatches(q, s) && TokenOk(p) && p.claims.Failure? ==>
      r == Failed(reverse(cfg.loginFailedUrl), [p.claims.error], st)
    ensures (&& cfg.enabled && TruthyOpt(q.code) && StateMatches(q, s) && TokenOk(p) && p.claims.Success?
             && !EmailAllowed(cfg.allowableDomains, UserEmail(p.claims.value))) ==>
      r == Failed(reverse(cfg.loginFailedUrl), [NotAllowedMessage(p.claims.value.mail)], st)
    ensures !GuardsPass(cfg, q, s, p) ==> r.Failed? && r.store == st
    ensures r.LoggedIn? ==> GuardsPass(cfg, q, s, p)
    ensures GuardsPass(cfg, q, s, p) ==>
      (r.LoggedIn? <==>
         LogsIn(cfg, backends, preLogin, p.claims.value, st) && RedirectFault(LoginTarget(cfg, reverse, s)).None?)
    ensures (&& GuardsPass(cfg, q, s, p) && LogsIn(cfg, backends, preLogin, p.claims.value, st)
             && RedirectFault(LoginTarget(cfg, reverse, s)).Some?) ==>
      && r.Uncaught? && r.error == RedirectError(RedirectFault(LoginTarget(cfg, reverse, s)).value)
      && r.session.loggedInUser.Some?
    ensures r.LoggedIn? && cfg.autoCreateUsers ==>
      r.session.loggedInUser == Some(GetOrCreateUser(cfg, p.claims.value, st).user.id)
    ensures r.LoggedIn? && !cfg.autoCreateUsers ==>
      r.session.loggedInUser == Some(WithEmail(st.users, p.claims.value.mail)[0].id)
    ensures r.LoggedIn? ==>
      && r.session.expiry == Some(cfg.sessionCookieAge)
      && r.redirect == LoginTarget(cfg, reverse, s)
      && r.session.loggedInUser.Some?
      && exists u | u in r.store.users ::
           u.id == r.session.loggedInUser.value && u.isActive && u.email == p.claims.value.mail
    ensures !cfg.autoCreateUsers ==> r.store == st
    ensures Valid(st) ==> Valid(r.store)
  {
    var failed := reverse(cfg.loginFailedUrl);
    if !cfg.enabled then Failed(failed, [NotEnabled], st)
    else if !TruthyOpt(q.code) then Failed(failed, [NoCode], st)
    else if !StateMatches(q, s) then Failed(failed, [StateMismatch], st)
    else if p.token.None? || p.token.value == map[] then Failed(failed, [NoAuthData], st)
    else if "error" in p.token.value then Failed(failed, AuthErrorMessages(p.token.value["error"]), st)
    else if p.claims.Failure? then Failed(failed, [p.claims.error], st)
    else if !EmailAllowed(cfg.allowableDomains, UserEmail(p.claims.value)) then
      Failed(failed, [NotAllowedMessage(p.claims.value.mail)], st)
    else LookupAndFinish(cfg, reverse, backends, s, p, preLogin, userHash, p.claims.value, st)
  }

  /** A network-path target "//host/..." has no scheme, so Django accepts
      it. */
  lemma NetworkPathAccepted(host: string, path: string)
    requires UrlParse.PlainHost(host) && UrlParse.PlainTail(path)
    ensures RedirectFault("//" + host + path).None?
  {
    var target := "//" + host + path;
    assert "" + "//" + host + path == target;
    UrlParse.AuthorityDropped("", host, path);
    assert UrlParse.NoUnsafe(target) by {
      assert forall x | x in target :: x in "//" || x in host || x in path;
    }
    UrlParse.RootedHasNoScheme(target);
  }

  /** The whole login with the corrected next path: after `start_login`, a
      callback that carries back the flow's state passes the state check;
      it logs the user in whenever the other checks pass, the lookup yields
      a user (`LogsIn`) and, with no path stored, Django accepts the default
      target; a stored path is always accepted, and a login lands on it. */
  lemma LoginLandsOnStoredPath(cfg: Conf.Config, reverse: string -> string, backends: seq<string>,
                               s0: Session, next: Option<string>, defaultNext: string,
                               flow: map<string, string>, authUri: string,
                               q: Query, p: Provider, preLogin: User -> Option<string>, userHash: string, st: Store)
    requires StartLogin(cfg, s0, next, defaultNext, flow, authUri).Success?
    requires "state" in flow && flow["state"] != "" && q.state == Some(flow["state"])
    ensures var started := StartLogin(cfg, s0, next, defaultNext, flow, authUri).value;
      var path := NextPath(next, defaultNext).value;
      var r := Callback(cfg, reverse, backends, q, started.session, p, preLogin, userHash, st);
      && StateMatches(q, started.session)
      && (path != "" ==> RedirectFault(path).None?)
      && ((&& cfg.enabled && TruthyOpt(q.code) && TokenOk(p) && p.claims.Success?
           && EmailAllowed(cfg.allowableDomains, UserEmail(p.claims.value))
           && LogsIn(cfg, backends, preLogin, p.claims.value, st)
           && (path == "" ==> RedirectFault(reverse(cfg.nextUrl)).None?)) ==> r.LoggedIn?)
      && (r.LoggedIn? ==> r.redirect == (if path != "" then path else reverse(cfg.nextUrl)))
      && (r.LoggedIn? && path != "" ==> IsLocal(r.redirect))
  {
    var started := StartLogin(cfg, s0, next, defaultNext, flow, authUri).value;
    var path := NextPath(next, defaultNext).value;
    assert SessionState(started.session) == Some(flow["state"]);
    assert started.session.nextUrl == Some(path);
    assert LoginTarget(cfg, reverse, started.session) == (if path != "" then path else reverse(cfg.nextUrl));
    if path != "" {
      LocalTargetAccepted(path);
    }
  }

  /** The same login with `start_login` as written: `next=////host/p`
      leaves "//host/p" in the session, Django accepts that target, and a
      callback that logs the user in redirects there, a network-path
      reference that browsers resolve to the other host. */
  lemma AsWrittenLoginLeavesSite(cfg: Conf.Config, reverse: string -> string, backends: seq<string>,
                                 s0: Session, host: string, path: string, defaultNext: string,
                                 flow: map<string, string>, authUri: string,
                                 q: Query, p: Provider, preLogin: User -> Option<string>, userHash: string, st: Store)
    requires host != "" && UrlParse.PlainHost(host) && ';' !in host && UrlParse.PlainTail(path)
    requires "state" in flow && flow["state"] != "" && q.state == Some(flow["state"])
    ensures var started := StartLoginAsWritten(cfg, s0, Some("////" + host + path), defaultNext, flow, authUri);
      && started.Success?
      && started.value.session.nextUrl == Some("//" + host + path)
      && var r := Callback(cfg, reverse, backends, q, started.value.session, p, preLogin, userHash, st);
         && ((&& cfg.enabled && TruthyOpt(q.code) && TokenOk(p) && p.claims.Success?
              && EmailAllowed(cfg.allowableDomains, UserEmail(p.claims.value))
              && LogsIn(cfg, backends, preLogin, p.claims.value, st)) ==> r.LoggedIn?)
         && (r.LoggedIn? ==> r.redirect == "//" + host + path && !IsLocal(r.redirect))
  {
    FourSlashesAsWritten(host, path, defaultNext);
    NetworkPathAccepted(host, path);
    var started := StartLoginAsWritten(cfg, s0, Some("////" + host + path), defaultNext, flow, authUri);
    assert SessionState(started.value.session) == Some(flow["state"]);
    assert TruthyOpt(started.value.session.nextUrl);
  }

  /** A target whose network location has a '[' without a ']' (or the
      reverse), such as "//[evil", makes `urlparse` raise, so building the
      redirect raises `ValueError`. */
  lemma UnbalancedHostRefused(host: string, path: string)
    requires UrlParse.HostText(host) && UrlParse.UnbalancedBrackets(host) && UrlParse.PlainTail(path)
    ensures RedirectFault("//" + host + path) == Some("ValueError")
  {
    UrlParse.UnbalancedHostFails(host, path);
  }

  /** With `start_login` as written, `next=////<host><path>` whose host has
      an unbalanced bracket (`next=////[evil`, say) is stored as
      "//<host><path>": `start_login` sees an empty network location and
      does not raise. A callback that would log the user in does log them
      in and then raises `ValueError` while building the redirect. */
  lemma AsWrittenUnbalancedHostRaises(cfg: Conf.Config, reverse: string -> string, backends: seq<string>,
                                      s0: Session, host: string, path: string, defaultNext: string,
                                      flow: map<string, string>, authUri: string,
                                      q: Query, p: Provider, preLogin: User -> Option<string>, userHash: string, st: Store)
    requires host != "" && UrlParse.HostText(host) && ';' !in host && UrlParse.PlainTail(path)
    requires UrlParse.UnbalancedBrackets(host)
    requires "state" in flow && flow["state"] != "" && q.state == Some(flow["state"])
    ensures var started := StartLoginAsWritten(cfg, s0, Some("////" + host + path), defaultNext, flow, authUri);
      && started.Success?
      && started.value.session.nextUrl == Some("//" + host + path)
      && var r := Callback(cfg, reverse, backends, q, started.value.session, p, preLogin, userHash, st);
         ((&& cfg.enabled && TruthyOpt(q.code) && TokenOk(p) && p.claims.Success?
           && EmailAllowed(cfg.allowableDomains, UserEmail(p.claims.value))
           && LogsIn(cfg, backends, preLogin, p.claims.value, st)) ==>
            && r.Uncaught? && r.error == RedirectError("ValueError")
            && r.session.loggedInUser.Some?)
  {
    FourSlashesAsWritten(host, path, defaultNext);
    UnbalancedHostRefused(host, path);
    var target := "//" + host + path;
    var started := StartLoginAsWritten(cfg, s0, Some("////" + host + path), defaultNext, flow, authUri);
    var s := started.value.session;
    assert SessionState(s) == Some(flow["state"]);
    assert s.nextUrl == Some(target) && TruthyOpt(s.nextUrl);
    assert LoginTarget(cfg, reverse, s) == target;
    if && cfg.enabled && TruthyOpt(q.code) && TokenOk(p) && p.claims.Success?
       && EmailAllowed(cfg.allowableDomains, UserEmail(p.claims.value))
       && LogsIn(cfg, backends, preLogin, p.claims.value, st)
    {
      assert GuardsPass(cfg, q, s, p);
      var r := Callback(cfg, reverse, backends, q, s, p, preLogin, userHash, st);
      assert r.Uncaught? && r.error == RedirectError(RedirectFault(target).value);
    }
  }

  /** `next=////[evil`: stored as "//[evil", then refused with
      `ValueError`. */
  lemma UnbalancedHostExample(defaultNext: string)
    ensures NextPathAsWritten(Some("////[evil"), defaultNext) == Success("//[evil")
    ensures RedirectFault("//[evil") == Some("ValueError")
  {
    var host := "[evil";
    assert UrlParse.HostText(host) && ';' !in host && UrlParse.UnbalancedBrackets(host) by {
      assert forall x | x in host :: x == '[' || x == 'e' || x == 'v' || x == 'i' || x == 'l';
    }
    assert "////[evil" == "////" + host + "";
    assert "//[evil" == "//" + host + "";
    FourSlashesAsWritten(host, "", defaultNext);
    UnbalancedHostRefused(host, "");
  }

  /** `next=http:javascript:alert(1)`: stored as "javascript:alert(1)",
      then refused with `DisallowedRedirect`. */
  lemma ForeignSchemeExample(defaultNext: string)
    ensures NextPathAsWritten(Some("http:javascript:alert(1)"), defaultNext) == Success("javascript:alert(1)")
    ensures RedirectFault("javascript:alert(1)") == Some("DisallowedRedirect")
  {
    var scheme, body := "javascript", "alert(1)";
    assert forall k | 0 <= k < |scheme| :: 'a' <= scheme[k] <= 'z';
    assert scheme !in AllowedRedirectSchemes;
    assert UrlParse.NoUnsafe(body) && '?' !in body && '#' !in body && ';' !in body && '[' !in body && ']' !in body by {
      assert forall x | x in body :: x == 'a' || x == 'l' || x == 'e' || x == 'r' || x == 't' || x == '(' || x == '1' || x == ')';
    }
    assert "http:javascript:alert(1)" == "http:" + scheme + ":" + body;
    assert "javascript:alert(1)" == scheme + ":" + body;
    ForeignSchemeStored(scheme, body, defaultNext);
  }

  /** With `start_login` as written, `next=http:<scheme>:<body>` for a
      scheme Django refuses (such as "javascript") leaves "<scheme>:<body>"
      in the session; a callback that would log the user in does log them
      in and then raises `DisallowedRedirect` while building the redirect. */
  lemma AsWrittenForeignSchemeRaises(cfg: Conf.Config, reverse: string -> string, backends: seq<string>,
                                     s0: Session, scheme: string, body: string, defaultNext: string,
                                     flow: map<string, string>, authUri: string,
                                     q: Query, p: Provider, preLogin: User -> Option<string>, userHash: string, st: Store)
    requires scheme != "" && forall k | 0 <= k < |scheme| :: 'a' <= scheme[k] <= 'z'
    requires scheme !in AllowedRedirectSchemes
    requires UrlParse.NoUnsafe(body) && '?' !in body && '#' !in body && ';' !in body
    requires '[' !in body && ']' !in body
    requires "state" in flow && flow["state"] != "" && q.state == Some(flow["state"])
    ensures var started := StartLoginAsWritten(cfg, s0, Some("http:" + scheme + ":" + body), defaultNext, flow, authUri);
      && started.Success?
      && started.value.session.nextUrl == Some(scheme + ":" + body)
      && var r := Callback(cfg, reverse, backends, q, started.value.session, p, preLogin, userHash, st);
         ((&& cfg.enabled && TruthyOpt(q.code) && TokenOk(p) && p.claims.Success?
           && EmailAllowed(cfg.allowableDomains, UserEmail(p.claims.value))
           && LogsIn(cfg, backends, preLogin, p.claims.value, st)) ==>
            && r.Uncaught? && r.error == RedirectError("DisallowedRedirect")
            && r.session.loggedInUser.Some?)
  {
    ForeignSchemeStored(scheme, body, defaultNext);
    var rest := scheme + ":" + body;
    var started := StartLoginAsWritten(cfg, s0, Some("http:" + scheme + ":" + body), defaultNext, flow, authUri);
    var s := started.value.session;
    assert SessionState(s) == Some(flow["state"]);
    assert s.nextUrl == Some(rest) && TruthyOpt(s.nextUrl);
    assert LoginTarget(cfg, reverse, s) == rest;
    if && cfg.enabled && TruthyOpt(q.code) && TokenOk(p) && p.claims.Success?
       && EmailAllowed(cfg.allowableDomains, UserEmail(p.claims.value))
       && LogsIn(cfg, backends, preLogin, p.claims.value, st)
    {
      assert GuardsPass(cfg, q, s, p);
      var r := Callback(cfg, reverse, backends, q, s, p, preLogin, userHash, st);
      assert r.Uncaught? && r.error == RedirectError(RedirectFault(rest).value);
    }
  }

  /** As written, `next=http:<scheme>:<body>` stores "<scheme>:<body>",
      a target Django refuses when the scheme is not http, https or ftp. */
  lemma ForeignSchemeStored(scheme: string, body: string, defaultNext: string)
    requires scheme != "" && forall k | 0 <= k < |scheme| :: 'a' <= scheme[k] <= 'z'
    requires scheme !in AllowedRedirectSchemes
    requires UrlParse.NoUnsafe(body) && '?' !in body && '#' !in body && ';' !in body
    requires '[' !in body && ']' !in body
    ensures NextPathAsWritten(Some("http:" + scheme + ":" + body), defaultNext) == Success(scheme + ":" + body)
    ensures RedirectFault(scheme + ":" + body) == Some("DisallowedRedirect")
  {
    var rest := scheme + ":" + body;
    assert "http:" + scheme + ":" + body == "http:" + rest;
    assert rest[0] == scheme[0];
    assert UrlParse.NoUnsafe(rest) && '?' !in rest && '#' !in rest && ';' !in rest by {
      forall k | 0 <= k < |rest|
        ensures !UrlParse.IsUnsafe(rest[k]) && rest[k] != '?' && rest[k] != '#' && rest[k] != ';'
      {
        if k < |scheme| { assert rest[k] == scheme[k]; }
        else if k > |scheme| { assert rest[k] == body[k - |scheme| - 1]; }
      }
    }
    HttpPrefixAsWritten(rest, defaultNext);
    ForeignSchemeRefused(scheme, body);
  }
}

=== FILE: wrappers.dfy ===
/** Optional values and results with an error, used wherever the modelled
    Python code returns `None` or raises. */
module Wrappers {

  datatype Option<+T> = None | Some(value: T) {

    /** The wrapped value, or `default` when absent (`getattr(obj, name, default)`). */
    function GetOr(default: T): T {
      match this
      case Some(v) => v
      case None => default
    }
  }

  datatype Result<+R, +E> = Success(value: R) | Failure(error: E)
}
